=== FILE: README.md ===
# Bouncing-ball restitution: a Dafny model

This project models the computational core of a bouncing-ball experiment kit. An
ultrasonic sensor (HC-SR04) on an ESP8266/ESP32 measures the distance to a falling
ball. The firmware stores or publishes the samples. Python programs then turn them
into coefficients of restitution and statistics. Each part is modelled as pure
functions over immutable state records, and the model proves what each part
guarantees.

| file | module | models |
|---|---|---|
| `peaks.dfy` | `Peaks` | `scipy.signal.find_peaks` without conditions (flat tops report their middle sample) |
| `analysis.py` parts in `analysis.dfy` | `Analysis` | `list_posisi_puncak`, `hitung_koefisien`, `hitung_statistik`, and the dashboard chain in `app.py` |
| `report.dfy` | `Report` | the arithmetic of `extract_ringkasan_statistik` after the regular expression, and the file-name split |
| `monitor.dfy` | `Monitor` | `python/main.py`: `on_message`, the collection controls, `detect_bounces`, `calculate_restitution_coefficient` |
| `subscriber.dfy` | `Subscriber` | `python/mqtt_subscriber.py`: `on_message`, `start_collecting`, `stop_collecting`, `analyze_bouncing_ball` |
| `webserver.dfy` | `WebServer` | the HTTP handlers of `platformio/src/webserver.h` |
| `station.dfy` | `Station` | `platformio/src/main.ino.cpp`: the non-blocking sonar read, the sampling step of `loop`, the MQTT callback |
| `sensor_node.dfy` | `SensorNode` | `src/main.cpp`: `readDistance`, the command callback, the publishing step of `loop` |
| `arduino.dfy` | `Arduino` | 32-bit `unsigned long` clock arithmetic, `String::toInt()` (C `strtol`), the echo-time conversion |
| `json.dfy`, `jsontext.dfy` | `Json`, `JsonText` | decoded MQTT payloads; JSON string literals (section 7 of RFC 8259) |
| `realmath.dfy`, `strings.dfy`, `basics.dfy` | `RealMath`, `Strings`, `Basics` | sums, mean, median, mode and population variance; Python and Arduino string operations; `Option` and `Filter` |

Design choices:

- **Numbers.** Heights, distances and times are `real`. `unsigned long` is the
  newtype `Arduino.ULong` (0 ≤ x < 2^32). The wrap-around of `now - last` is
  written out in `Arduino.Elapsed`.
- **Parameters for what is not modelled.** These are passed in as function
  parameters:
  - `sqrt`, with the predicate `IsSqrt` stating its meaning;
  - two-decimal rounding;
  - Python's `float()` of a string;
  - the low-pass filter;
  - `find_peaks` with `height`/`distance` conditions;
  - `String(float, 3)`;
  - the clocks, the echo pin, `pulseIn` and the client's connection state.
- **`find_peaks` without conditions** (analysis.py line 14) is modelled concretely,
  after scipy's scan. A flat top of equal samples reports its middle sample, so
  plateaus count as peaks. Here the code is followed, not a reading that takes
  only strict peaks.
- **Python exceptions** are outcomes:
  - in `python/main.py` every exception is caught, so the state is unchanged;
  - in `python/mqtt_subscriber.py` only `JSONDecodeError` is caught, so
    `Subscriber.Outcome` has a `Raised` case.
- **`hitung_statistik`'s second filter** (`x != 1.0 or x != 0.0`) is kept as
  written, and the model proves that it keeps every value.

## Model

| member | source | states |
|---|---|---|
| Peaks.LocalMaxima | analysis.py:14 | peaks are interior samples (none for fewer than 3), in increasing order, each at least as high as both neighbours |
| Peaks.ScanShape | analysis.py:14 | the scan from `i` reports interior indices from `i` on, increasing, each at least as high as both neighbours |
| Peaks.Ahead | analysis.py:14 | the end of a run of equal samples: all samples before it equal the run's value, and it differs or is the last |
| Peaks.ScanExact | analysis.py:14 | the scan from `i` reports exactly the middles of the flat tops that start at or after `i` |
| Peaks.LocalMaximaExact | analysis.py:14 | `find_peaks` reports an index iff it is the middle of a flat top entered by a rise and left by a drop |
| Peaks.StrictPeakReported | analysis.py:14 | a sample strictly above both neighbours is always reported |
| Peaks.PlateauEnd | analysis.py:14 | two flat tops that start at the same sample end at the same sample |
| Peaks.StepRiseDrop | analysis.py:14 | when the run after a rise ends in a drop, it is the next flat top and no other flat top starts inside it |
| Analysis.PeakIndices | analysis.py:14-19 | kept positions are increasing, in range, and never more than the rows |
| Analysis.ListPosisiPuncak | analysis.py:13-19 | the peak table has one row per kept peak position |
| Analysis.ListPosisiPuncakSpec | analysis.py:13-19 | the peak table is the input rows at an increasing run of positions, each strictly above `min_height`, and a row is kept iff it is a flat-top middle above the minimum |
| Analysis.FungsiRestitusiRange | analysis.py:22-25 | equal heights give 1; a higher bounce or one at or below 0 gives 0; otherwise `sqrt(h/prev)`, strictly between 0 and 1 |
| Analysis.RawKoefisien | analysis.py:27-28 | one record per height, numbered by position, comparing the first with `h0` and each later one with its predecessor |
| Analysis.HitungKoefisien | analysis.py:21-31 | at most one row per height, numbers strictly increasing, no row whose raw value is 0 or 1 |
| Analysis.HitungKoefisienSpec | analysis.py:21-31 | a height gets a row iff it is positive and strictly below the height it is compared with; the value is then the rounded root of the ratio |
| Analysis.SecondFilterKeepsAll | analysis.py:35 | the filter `x != 1.0 or x != 0.0` keeps every value |
| Analysis.CleanDataSpec | analysis.py:34-37 | `None` entries are dropped, all other values are kept in order, and an empty result becomes `[1.0, 1.0]` |
| Analysis.Precision | analysis.py:46 | the precision is undefined iff the mean is 0; otherwise it is `(1 - std/mean)·100`, stated as `r·mean == (mean - std)·100`, and 100 when the spread is 0 |
| Analysis.StatTable | analysis.py:48-51 | six rows, labelled in the fixed order of the table |
| Analysis.HitungStatistik | analysis.py:33-52 | six rows, labelled in the fixed order of the table |
| Analysis.SummarizeMean | analysis.py:38 | the reported mean balances the data: the deviations from it sum to zero |
| Analysis.SummarizeMedian | analysis.py:39 | the median is the middle of the sorted data for an odd count and the average of the two middle values for an even count; at least half of the values are at most it, and at least half are at least it |
| Analysis.SummarizeMode | analysis.py:40-43 | the mode is present, is a value of the data, occurs as often as any value, and is the smallest such value |
| Analysis.SummarizeSpread | analysis.py:44-46 | the standard deviation is non-negative, its square is the population variance (`ddof=0`), and it is zero iff all values are equal; the uncertainty is std over the root of n; the precision is undefined iff the mean is 0 |
| Analysis.SummarizePlaceholder | analysis.py:36-46 | the placeholder `[1.0, 1.0]` gives mean, median and mode 1, std and uncertainty 0, precision 100 |
| Analysis.HitungStatistikPlaceholder | analysis.py:33-52 | with no value left, the table reports the placeholder statistics |
| Analysis.KoefisienValuesSpec | analysis.py:21-31 | each value of the coefficient column is the rounded root of the ratio of an eligible bounce (positive, strictly below the height before it) to that height; every eligible bounce contributes its value; the column is empty iff no bounce is eligible |
| Analysis.ApexHeightsSpec | app.py:401-403 | the apexes passed on are the rounded heights `Init_h - raw` at the peak positions, in order; a position is a peak iff it is the middle of a flat top of the height series above `min` |
| Analysis.AnalisisData | app.py:397-407 | the statistics table has six rows, labelled in the fixed order |
| Analysis.AnalisisDataSpec | app.py:397-407 | the table is the summary of exactly the apex coefficients; with no eligible apex it is the placeholder statistics |
| Analysis.AnalisisDataShortSeries | app.py:397-407 | fewer than three recorded rows give the placeholder statistics |
| Report.Flatten | python/create_lampiran_tex.py:38-41 | the matched heights in order: entry `2i` is pair `i`'s first height and `2i+1` its second |
| Report.Dedupe | python/create_lampiran_tex.py:45 | same values as the input, each once |
| Report.DedupeKeepsFirstOccurrenceOrder | python/create_lampiran_tex.py:45 | kept values appear in the order of their first occurrences |
| Report.SortDescending | python/create_lampiran_tex.py:47 | the result is non-increasing and a permutation of the input |
| Report.TinggiListSpec | python/create_lampiran_tex.py:38-47 | the height list is non-increasing, contains 35, holds exactly the matched heights and 35, and has one entry more than the distinct matched heights |
| Report.KoefisienMembers | python/create_lampiran_tex.py:53-57 | a value is a coefficient iff it is `sqrt(next/cur)` for a strictly decreasing neighbour pair |
| Report.KoefisienSound | python/create_lampiran_tex.py:53-57 | every coefficient comes from a strictly decreasing neighbour pair |
| Report.KoefisienComplete | python/create_lampiran_tex.py:53-57 | every strictly decreasing neighbour pair contributes its coefficient |
| Report.KoefisienCount | python/create_lampiran_tex.py:53-57 | on a descending list, the number of coefficients is the number of distinct values less one |
| Report.KoefisienRange | python/create_lampiran_tex.py:53-57 | every coefficient lies in `[0, 1)` |
| Report.Truthy | python/create_lampiran_tex.py:70-74 | a value is reported iff it is present and non-zero |
| Report.ExtractRingkasan | python/create_lampiran_tex.py:50-76 | a reported count is positive; precision is present iff mean and std are; no coefficient means no mean, std or precision |
| Report.ExtractRingkasanCounts | python/create_lampiran_tex.py:45-57 | the count is missing iff nothing matched, else it is the number of distinct matched heights; the coefficients number that, less one if 35 was matched |
| Report.ExtractRingkasanValues | python/create_lampiran_tex.py:59-76 | the mean is the value the coefficients balance around, reported iff some coefficient is non-zero; the std squares to the population variance and is reported iff the coefficients are not all equal (never for a single one); the precision is `(1 - std/mean) * 100` |
| Report.ExtractRingkasanRange | python/create_lampiran_tex.py:53-74 | a reported mean lies in `(0, 1)` and a reported std is positive |
| Report.ParseNamaFile | python/create_lampiran_tex.py:90-95 | no result iff there are fewer than 3 parts, or the third is `Tenis` and there is no fourth; the trial is the last part without `.txt` |
| Report.ParseNamaFileRoundTrip | python/create_lampiran_tex.py:90-95 | `Analisis_Bola_<jenis>_<trial>.txt` and `Analisis_Bola_Tenis_<jenis>_<trial>.txt` give back `jenis` and the trial |
| Monitor.OnMessageBareNumber | python/main.py:178-191 | a text without a colon is stored iff it parses as a number in `(0, 400]`, and then exactly that distance is appended |
| Monitor.ReadFields | python/main.py:142-186 | undecodable payloads and JSON that is not an object are dropped; a text sample has time 0 |
| Monitor.OnMessage | python/main.py:132-215 | not collecting leaves the state unchanged; otherwise one sample with a distance in `(0, 400]` is appended to both series, or nothing changes; the series stay paired |
| Monitor.OnMessageObject | python/main.py:146-206 | for a JSON object, the distance is `distance`, else `dist`, else 0, and the time is `timestamp`, else `time`, else 0; it is stored iff the distance is a number in `(0, 400]` and the time is a number; a positive time is stored verbatim |
| Monitor.OnMessageKeyValue | python/main.py:165-177 | a `key:value` text is stored iff it has exactly two parts, the key is `distance` or `dist` in any case, the value parses, and it is in range |
| Monitor.OnMessageLocalClock | python/main.py:194-201 | without a positive device time, the first sample starts the clock at 0 and later samples are timed from it |
| Monitor.StartCollection | python/main.py:252-262 | collecting, with the clock started now; samples are kept |
| Monitor.StopCollection | python/main.py:264-273 | not collecting; samples and clock are kept |
| Monitor.ResetData | python/main.py:275-286 | no samples and no clock; the collecting flag is kept |
| Monitor.ResetRestartsClock | python/main.py:275-286 | after a reset, the next local-time sample is stamped 0 |
| Monitor.DetectBounces | python/main.py:58-73 | fewer than 20 samples give no bounces; bounce times and distances are values of the series |
| Monitor.DetectBouncesPaired | python/main.py:67-68 | with as many times as distances, there are as many bounce times as bounce distances |
| Monitor.PairCoefficientsPositive | python/main.py:93-96 | with positive heights, there is one coefficient per consecutive pair, `sqrt(h[i+1]/h[i])` |
| Monitor.PairCoefficientsRange | python/main.py:93-96 | for non-negative heights that never rise, every coefficient is in `[0, 1]` |
| Monitor.RestitutionCoefficients | python/main.py:92-96 | the loop computes the reference coefficients |
| Monitor.CalculateRestitution | python/main.py:75-111 | fewer than 50 samples give no result; with enough samples, fewer than 2 bounces of the filtered series is exactly the "too few bounces" answer; each height is the highest filtered distance minus the bounce's distance, at least 2 of them, all non-negative; no coefficient exactly when no height but the last is positive; otherwise the reference coefficients and their mean |
| Monitor.PairCoefficientsEmpty | python/main.py:92-98 | the coefficient loop yields nothing exactly when no height but the last is positive |
| Subscriber.HasKey | python/mqtt_subscriber.py:28 | `in` raises iff the value is a number, boolean or null; on an object it tests the keys |
| Subscriber.OnMessage | python/mqtt_subscriber.py:24-37 | idle leaves the state unchanged; a record is appended iff the payload is a JSON object with both keys, carrying its values, the experiment or `Unknown`, and the arrival time; it raises iff the payload is not UTF-8, is a scalar, or is a string or array that passes both key tests |
| Subscriber.StartCollecting | python/mqtt_subscriber.py:39-42 | collecting with no data |
| Subscriber.StopCollecting | python/mqtt_subscriber.py:44-46 | not collecting; data kept |
| Subscriber.Inverted | python/mqtt_subscriber.py:98 | each entry is the maximum minus the distance, never negative |
| Subscriber.ConsecutiveCoefficients | python/mqtt_subscriber.py:113-118 | one coefficient per consecutive pair: `sqrt(h2/h1)` if `h1 > 0`, else 0 |
| Subscriber.FindBounces | python/mqtt_subscriber.py:86-103 | no result iff there is no data or fewer than 2 peaks; peaks index the series |
| Subscriber.AnalyzeAsWritten | python/mqtt_subscriber.py:84-130 | no result iff no data or fewer than 2 peaks; peak heights are the raw distances at the peaks; one coefficient fewer than peaks |
| Subscriber.AnalyzeBouncingBall | python/mqtt_subscriber.py:84-130 | the same, with peak heights taken from the inverted series, never negative |
| Subscriber.Distances | python/mqtt_subscriber.py:90-91 | defined iff every recorded distance is a JSON number; then one value per record, in order |
| Subscriber.AnalyzeRecorded | python/mqtt_subscriber.py:84-130 | on the recorded data with numeric distances: no result iff there is no data, fewer than 2 peaks, or a peak whose timestamp is not a number (line 110 formats it with `.3f`); each peak indexes a record and its height is the largest recorded distance minus that record's distance |
| Subscriber.AsWrittenRisesAboveOne | python/mqtt_subscriber.py:105 | as written, a second apex lower than the first gives a coefficient above 1 |
| Subscriber.DecayingBounceCounterexample | python/mqtt_subscriber.py:98-117 | on a concrete decaying bounce, with the peaks at its two apexes, the as-written coefficient exceeds 1 and the corrected one is below 1 |
| Subscriber.CorrectedStaysBelowOne | python/mqtt_subscriber.py:98-117 | corrected, a second apex lower than the first gives a coefficient below 1 |
| Subscriber.AnalyzeBouncingBallRange | python/mqtt_subscriber.py:113-121 | corrected, for bounces that lose height, every coefficient and the average lie in `[0, 1]` |
| Arduino.Elapsed | platformio/src/main.ino.cpp:252 | `last + elapsed ≡ now` modulo 2^32 |
| Arduino.ElapsedAfter | src/main.cpp:209 | `t` ticks after `last`, the elapsed time is `t`, also across a rollover |
| Arduino.ToLong | src/main.cpp:131 | `toInt` always yields a value in the 32-bit `long` range |
| Arduino.ToLongIntToString | src/main.cpp:131 | `toInt` reads back the decimal rendering of any `long`, whatever non-digit follows |
| Arduino.ToLongNoNumber | platformio/src/webserver.h:294 | text without a sign or digit after white space reads as 0 |
| Arduino.ToULong | platformio/src/webserver.h:294 | a `long` stored in an `unsigned long` keeps its value modulo 2^32 |
| Arduino.NegativeWraps | platformio/src/webserver.h:294 | a negative `long` becomes `v + 2^32`, at least 2^31 |
| Arduino.EchoDistance | platformio/src/main.ino.cpp:96 | the truncated centimetres of an echo: `r*1000 <= 17*duration < (r+1)*1000` |
| WebServer.HandleStatus | platformio/src/webserver.h:274-281 | no state change; answers 200 with the status document |
| WebServer.StatusJson | platformio/src/webserver.h:275-279 | the status document is the `isReading`/`dataCount` prefix, then the experiment name unchanged, then `"}` |
| WebServer.StatusJsonEscaped | platformio/src/webserver.h:275-279 | the corrected status document: the same prefix and closing `"}` around the escaped experiment name |
| WebServer.Lines | platformio/src/webserver.h:322-324 | the data lines are empty exactly when there are no entries; otherwise they start with the first entry and a line feed and end with a line feed |
| WebServer.StatusMisreadsQuote | platformio/src/webserver.h:278 | as written, an experiment named `a"b` reads back as `a`, with `b"}` left over |
| WebServer.StatusEscapedReadsName | platformio/src/webserver.h:274-280 | with escaping, a JSON reader gets exactly the experiment name and the document closes after it |
| WebServer.HandleSetExperiment | platformio/src/webserver.h:283-290 | a present name is stored with 200; a missing one answers 400 and changes nothing |
| WebServer.ClampedInterval | platformio/src/webserver.h:294-296 | the interval is in `[10, 1000]`; an in-range number is kept, 0..9 give 10, larger numbers give 1000 |
| WebServer.NegativeIntervalClampsHigh | platformio/src/webserver.h:294-296 | a negative number wraps and clamps to 1000 |
| WebServer.HandleSetInterval | platformio/src/webserver.h:292-301 | with an argument, the interval becomes `ClampedInterval` of the argument (`toInt`, to `unsigned long`, clamped to `[10, 1000]`), nothing else changes, and the answer is 200; a missing argument answers 400 and changes nothing |
| WebServer.HandleStart | platformio/src/webserver.h:303-308 | reading, no data, start time now; name and interval kept |
| WebServer.HandleStop | platformio/src/webserver.h:310-313 | not reading; everything else kept |
| WebServer.HandleClear | platformio/src/webserver.h:331-334 | no data; everything else kept |
| WebServer.SafeStem | platformio/src/webserver.h:316-319 | same length; each space, slash and backslash becomes `_`, other characters are kept |
| WebServer.SafeStemClean | platformio/src/webserver.h:316-319 | the stem has no space, slash or backslash, and sanitising again changes nothing |
| WebServer.CsvLines | platformio/src/webserver.h:322-325 | split at line feeds, the file is the header, each entry in stored order, and an empty rest |
| WebServer.HandleDownload | platformio/src/webserver.h:315-329 | no state change; the CSV of the stored entries, named after the sanitised experiment with `.csv` |
| Station.ReadDistanceNonBlocking | platformio/src/main.ino.cpp:70-108 | -1 iff a measurement is still under way afterwards; a result ≥ 0 ends it; from idle it fires the trigger; a -1 mid-measurement changes nothing but the pulse start on a rising echo |
| Station.ReadCycle | platformio/src/main.ino.cpp:76-99 | trigger, rising echo, falling echo: the third call returns the distance for the echo width and ends the measurement |
| Station.ReadTimeout | platformio/src/main.ino.cpp:102-107 | without an echo: 0 and back to idle after more than 30000 µs, else -1 with no change |
| Station.EntryFields | platformio/src/main.ino.cpp:260 | an entry splits at commas into timestamp, distance, `cm` and experiment, and the distance reads back |
| Station.LoopStep | platformio/src/main.ino.cpp:249-281 | nothing happens unless reading and an interval has passed; a due pass advances the reader by one non-blocking read; an entry is appended and `lastSensorRead` set iff the read returns ≥ 0; only the data changes among the shared variables |
| Station.LoopStoresFinishedReads | platformio/src/main.ino.cpp:252-261 | with the reader idle, a due pass only fires the trigger and stores nothing |
| Station.DistanceText | platformio/src/main.ino.cpp:160 | the published text is `Distance: `, a number that reads back as the distance, then ` cm` |
| Station.Callback | platformio/src/main.ino.cpp:143-172 | `READ_DISTANCE` publishes iff the read returns ≥ 0, and the text is `Distance: ` then a number that reads back as that distance, then ` cm`; any other message sets the LED low iff its first byte is `1` |
| Station.IdleRequestPublishesNothing | platformio/src/main.ino.cpp:157-164 | a distance request that finds the reader idle only fires the trigger |
| SensorNode.ReadDistance | src/main.cpp:42-58 | -1 or a value in `[2, 400]`; a value iff the pulse was measured and its distance is in range |
| SensorNode.PulseBeyondTimeoutRejected | src/main.cpp:48-54 | a pulse longer than the 30000 µs limit of `pulseIn` reads as -1, so the limit needs no precondition |
| SensorNode.Callback | src/main.cpp:93-142 | `START_READING`/`STOP_READING` set the flag and nothing else; `INTERVAL:` changes the interval only to a value in 50..5000; others set only the LED |
| SensorNode.IntervalCommand | src/main.cpp:129-136 | `INTERVAL:<k>` sets the interval to `k` iff `50 <= k <= 5000`, else keeps it |
| SensorNode.LoopStep | src/main.cpp:206-233 | `lastSensorRead` becomes now iff the pass is due, before the read; a distance is published iff due, positive and connected |
| SensorNode.PublishedDistancesAccepted | src/main.cpp:106-119 | every published distance passes the monitor's `0 < d <= 400` check |

## Left out

- The Shiny dashboard UI, plotting, notifications and export in `app.py`. Only
  the chain at lines 399-407 is modelled.
- The Tk GUIs and the GUI side effects of `python/main.py`. `update_needed` is
  kept as a flag.
- The embedded HTML and JavaScript page of `webserver.h`.
- MQTT, WiFi and WebSocket clients, and the reconnect loops. The JSON text that
  `src/main.cpp` publishes is reduced to the distance it carries.
- File reading and the regular expressions of the report. Its input is the list
  of matched height pairs. The pattern `[\d.]+` (python/create_lampiran_tex.py
  line 38) matches only digits and dots, so the matches `float()` accepts are
  unsigned numbers; that is the `UnsignedHeights` precondition. A match such as
  `1.2.3` makes `float()` raise on line 40, before the modelled step.
- `butter`/`filtfilt`, and `find_peaks` with `height`/`distance` conditions.
  They are parameters; only their output's index range is assumed.
- Floating point. These are parameters:
  - rounding to 2 decimals;
  - `String(ts, 3)`;
  - the IEEE results of `sqrt`, mean and std.

  `Arduino.EchoDistance` takes `duration * 0.034 / 2` as the exact value
  `17 * duration / 1000`, truncated.
- `json.loads` and UTF-8 decoding. A payload arrives already classified as JSON,
  as text, or as undecodable.
- Monitor.OnMessage: two reads of the clock (lines 200-201) are one `now`.
- Monitor.OnMessage: distances are reals, which have no NaN. In python/main.py a
  NaN distance, from `float("nan")` on line 170 or 181 or from `NaN` in a JSON
  payload, passes the check `d <= 0 or d > 400` on line 189, because every
  comparison with NaN is false. It would then be stored. The model's promise that
  every stored distance lies in `(0, 400]` does not hold for that input.
- Station.ReadDistanceNonBlocking: the echo pin is read once. The second read
  at line 94 only matters when the first read's branch was not taken for the
  same reason, so one level serves both.
- Station.Callback and SensorNode.Callback: when the payload is empty,
  `payload[0]` is whatever byte the client buffer holds. It is the parameter
  `staleByte`.
- Subscriber.AnalyzeBouncingBall: the peak times are not carried in the result.
- Subscriber.AnalyzeRecorded: it gives no result when some recorded distance is
  not a JSON number, or some peak's timestamp is not. In the source:
  - a string distance makes line 98 raise;
  - a `true`/`false` distance in a column with numbers counts as 1/0;
  - a `null` distance becomes NaN in the column built on lines 90-91;
  - a string, array or object timestamp at a peak makes line 110 raise, so
    nothing is returned;
  - a `null` or boolean timestamp at a peak may print as `nan` or `1.000`,
    depending on the column's type.

  NaN and the pandas column types are not modelled.
- Subscriber.DecayingBounceCounterexample: the peaks `[1, 101]` are taken as what
  `find_peaks(..., height=..., distance=50)` reports for the series; that call is a
  parameter elsewhere and is not computed here.
- `python/encryptdecript.py`, `data.py`, `config.py`, `python/main_simplified.py`,
  `python/convert_to_latex.py` and the example programs.

## Findings

| source | as written | input that shows it | evidently intended | confidence | as-written member | corrected member |
|---|---|---|---|---|---|---|
| python/mqtt_subscriber.py:105 | `peak_heights = distances[peaks]` reads the raw distances from the sensor, although the peaks were found on `max(distances) - distances` | 103 samples at 100 cm, except 20 cm at index 1 and 40 cm at index 101; the peaks are the two apexes, indices 1 and 101; the coefficient is `sqrt(40/20) > 1` | `inverted_distances[peaks]`, the heights above the lowest point: heights 80 and 60, coefficient `sqrt(0.75) < 1` | not executed | Subscriber.DecayingBounceCounterexample | Subscriber.AnalyzeBouncingBallRange |
| platformio/src/webserver.h:278 | the experiment name is pasted between quotes without escaping | the name `a"b`: a JSON reader takes the name to be `a` and finds `b"}` where the object should close | escape `"`, `\` and control characters | not executed | WebServer.StatusMisreadsQuote | WebServer.StatusEscapedReadsName |

=== FILE: analysis.dfy ===
/** The restitution analysis of the dashboard (analysis.py) and the way the
    dashboard chains it (app.py, `analisis_data`): recorded distances become heights,
    the peaks of the height series above a minimum are the bounce apexes, each apex
    is compared with the one before it (the first with the drop height `h0`) to give
    a coefficient of restitution, and the coefficients are summarised in a six-row
    table.

    Heights are exact reals. The square root (`np.sqrt`) and the two-decimal
    rounding of `format_decimal_cols` are parameters; NaN and infinity results of
    a division by zero are `None`. */
module Analysis {
  import opened Basics
  import opened RealMath
  import opened Peaks

  /** One row of the recorded data frame: its `datetime` cell and its `High` cell. */
  datatype Row = Row(datetime: string, high: real)

  function Highs(rows: seq<Row>): (r: seq<real>)
    ensures |r| == |rows|
    ensures forall i :: 0 <= i < |rows| ==> r[i] == rows[i].high
  {
    seq(|rows|, i requires 0 <= i < |rows| => rows[i].high)
  }

  /** Positions of the rows `list_posisi_puncak` keeps: the peaks of the `High`
      column whose height is strictly above `minHeight`, in their original order. */
  function PeakIndices(rows: seq<Row>, minHeight: real): (r: seq<nat>)
    ensures |r| <= |rows|
    ensures forall j :: 0 <= j < |r| ==> r[j] < |rows| && rows[r[j]].high > minHeight
    ensures forall j, m :: 0 <= j < m < |r| ==> r[j] < r[m]
  {
    var peaks := LocalMaxima(Highs(rows));
    var r := Filter(peaks, (k: nat) => k < |rows| && rows[k].high > minHeight);
    FilterKeepsOrder(peaks, (k: nat) => k < |rows| && rows[k].high > minHeight, (a: nat, b: nat) => a < b);
    IncreasingBelowBound(r, |rows|);
    r
  }

  /** A strictly increasing sequence of indices below `n` has at most `n` entries. */
  lemma {:induction false} IncreasingBelowBound(r: seq<nat>, n: nat)
    requires forall j :: 0 <= j < |r| ==> r[j] < n
    requires forall j, m :: 0 <= j < m < |r| ==> r[j] < r[m]
    ensures |r| <= n
  {
    if |r| > 0 {
      IncreasingBelowBound(r[..|r| - 1], r[|r| - 1]);
    }
  }

  /** `list_posisi_puncak(df, min_height)`: the peak rows above `minHeight`, with
      their heights rounded afterwards. */
  function ListPosisiPuncak(rows: seq<Row>, minHeight: real, round: real -> real): (r: seq<Row>)
    ensures |r| == |PeakIndices(rows, minHeight)|
  {
    var idx := PeakIndices(rows, minHeight);
    seq(|idx|, j requires 0 <= j < |idx| => Row(rows[idx[j]].datetime, round(rows[idx[j]].high)))
  }

  /** The peak table is the rows at an increasing run of positions, each above the
      minimum, rounded; and a row is in it exactly when it is the reported middle of
      a flat top of the `High` column that lies above the minimum. */
  lemma ListPosisiPuncakSpec(rows: seq<Row>, minHeight: real, round: real -> real, k: nat)
    ensures var idx := PeakIndices(rows, minHeight);
            && (forall j :: 0 <= j < |idx| ==>
                  ListPosisiPuncak(rows, minHeight, round)[j]
                    == Row(rows[idx[j]].datetime, round(rows[idx[j]].high)))
            && (k in idx <==> k < |rows| && rows[k].high > minHeight && PeakFrom(Highs(rows), 1, k))
  {
    var peaks := LocalMaxima(Highs(rows));
    LocalMaximaExact(Highs(rows), k);
    if k < |rows| && rows[k].high > minHeight && PeakFrom(Highs(rows), 1, k) {
      assert k in peaks;
    }
  }

  /** `fungsi_restitusi(h1, h2)`: the coefficient for a bounce of height `h1`
      following one of height `h2`. */
  function FungsiRestitusi(sqrt: real -> real, h1: real, h2: real): real {
    if h1 < h2 then
      (if h1 > 0.0 then sqrt(h1 / h2) else 0.0)
    else if h1 == h2 then 1.0
    else 0.0
  }

  /** Equal heights give 1; a higher bounce, or a lower one at or below the floor,
      gives 0; any other bounce gives the root of the height ratio, which lies
      strictly between 0 and 1. No division by zero is possible. */
  lemma FungsiRestitusiRange(sqrt: real -> real, h1: real, h2: real)
    requires IsSqrt(sqrt)
    ensures FungsiRestitusi(sqrt, h1, h2) == 1.0 <==> h1 == h2
    ensures FungsiRestitusi(sqrt, h1, h2) == 0.0 <==> h1 != h2 && !(0.0 < h1 < h2)
    ensures 0.0 < h1 < h2 ==>
              && 0.0 < FungsiRestitusi(sqrt, h1, h2) < 1.0
              && Sq(FungsiRestitusi(sqrt, h1, h2)) == h1 / h2
  {
    if 0.0 < h1 < h2 {
      var q := h1 / h2;
      assert 0.0 < q < 1.0;
      SqrtVersusOne(sqrt, q);
      SqrtIsZero(sqrt, q);
    }
  }

  /** One row of the coefficient table: `No` and `Koefisien Restitusi`. */
  datatype KoefRow = KoefRow(no: nat, koefisien: real)

  /** The height a bounce is compared with: `h0` for the first, the previous bounce
      for every later one. */
  function Previous(heights: seq<real>, h0: real, i: nat): real
    requires i < |heights|
  {
    if i == 0 then h0 else heights[i - 1]
  }

  /** The list comprehension of `hitung_koefisien`: one raw record per height. */
  function RawKoefisien(sqrt: real -> real, heights: seq<real>, h0: real): (r: seq<KoefRow>)
    ensures |r| == |heights|
    ensures forall i :: 0 <= i < |r| ==> r[i].no == i
  {
    seq(|heights|, i requires 0 <= i < |heights| =>
      KoefRow(i, FungsiRestitusi(sqrt, heights[i], Previous(heights, h0, i))))
  }

  predicate IsDegenerate(v: real) {
    v == 0.0 || v == 1.0
  }

  /** `hitung_koefisien(heights, h0)`: the raw records whose value is neither 0 nor
      1, with the values rounded after the filter. */
  function HitungKoefisien(sqrt: real -> real, round: real -> real, heights: seq<real>, h0: real): (r: seq<KoefRow>)
    ensures |r| <= |heights|
    ensures forall j, m :: 0 <= j < m < |r| ==> r[j].no < r[m].no
    ensures forall j :: 0 <= j < |r| ==> r[j].no < |heights|
  {
    var raw := RawKoefisien(sqrt, heights, h0);
    var kept := Filter(raw, (row: KoefRow) => !IsDegenerate(row.koefisien));
    FilterKeepsOrder(raw, (row: KoefRow) => !IsDegenerate(row.koefisien), (a: KoefRow, b: KoefRow) => a.no < b.no);
    forall j | 0 <= j < |kept|
      ensures kept[j].no < |heights|
    {
      var i :| 0 <= i < |raw| && raw[i] == kept[j];
    }
    seq(|kept|, j requires 0 <= j < |kept| => KoefRow(kept[j].no, round(kept[j].koefisien)))
  }

  /** A bounce gets a row in the coefficient table exactly when it is above the floor
      and strictly lower than the height it is compared with; its value is then the
      rounded root of the height ratio. */
  lemma HitungKoefisienSpec(sqrt: real -> real, round: real -> real, heights: seq<real>, h0: real, i: nat)
    requires IsSqrt(sqrt)
    requires i < |heights|
    ensures (exists j :: 0 <= j < |HitungKoefisien(sqrt, round, heights, h0)|
                         && HitungKoefisien(sqrt, round, heights, h0)[j].no == i)
            <==> 0.0 < heights[i] < Previous(heights, h0, i)
    ensures forall j :: 0 <= j < |HitungKoefisien(sqrt, round, heights, h0)| ==>
              var row := HitungKoefisien(sqrt, round, heights, h0)[j];
              row.no < |heights| && 0.0 < heights[row.no] < Previous(heights, h0, row.no)
              && row.koefisien == round(sqrt(heights[row.no] / Previous(heights, h0, row.no)))
  {
    var raw := RawKoefisien(sqrt, heights, h0);
    var p := (row: KoefRow) => !IsDegenerate(row.koefisien);
    var kept := Filter(raw, p);
    var out := HitungKoefisien(sqrt, round, heights, h0);
    forall j | 0 <= j < |out|
      ensures out[j].no < |heights| && 0.0 < heights[out[j].no] < Previous(heights, h0, out[j].no)
      ensures out[j].koefisien == round(sqrt(heights[out[j].no] / Previous(heights, h0, out[j].no)))
    {
      var k :| 0 <= k < |raw| && raw[k] == kept[j];
      FungsiRestitusiRange(sqrt, heights[k], Previous(heights, h0, k));
    }
    FungsiRestitusiRange(sqrt, heights[i], Previous(heights, h0, i));
    if 0.0 < heights[i] < Previous(heights, h0, i) {
      assert p(raw[i]);
      var j :| 0 <= j < |kept| && kept[j] == raw[i];
      assert out[j].no == i;
    }
  }

  /** One row of the statistics table: `Statistik` and `Nilai`. */
  datatype StatRow = StatRow(statistik: string, nilai: Option<real>)

  /** The six statistics before rounding. */
  datatype Summary = Summary(
    mean: real, median: real, mode: Option<real>, std: real,
    uncertainty: Option<real>, precision: Option<real>)

  /** Division as numpy does it on floats: a zero divisor gives NaN or infinity, here
      `None`. */
  function Divide(a: real, b: real): (r: Option<real>)
    ensures r.None? <==> b == 0.0
  {
    if b == 0.0 then None else Some(a / b)
  }

  /** The values of the entries that are not `None`, in order. */
  function DropNone(data: seq<Option<real>>): (r: seq<real>)
    ensures |r| <= |data|
    ensures forall j :: 0 <= j < |r| ==> Some(r[j]) in data
    ensures forall i :: 0 <= i < |data| && data[i].Some? ==> data[i].value in r
  {
    if |data| == 0 then []
    else (if data[0].Some? then [data[0].value] else []) + DropNone(data[1..])
  }

  /** The second filter of `hitung_statistik`: `x != 1.0 or x != 0.0`. */
  predicate KeptBySecondFilter(x: real) {
    x != 1.0 || x != 0.0
  }

  /** The second filter keeps every value: no number equals both 1 and 0. */
  lemma SecondFilterKeepsAll(xs: seq<real>)
    ensures Filter(xs, KeptBySecondFilter) == xs
  {
    FilterAll(xs, KeptBySecondFilter);
  }

  /** The cleaned data `hitung_statistik` summarises; `[1.0, 1.0]` when nothing is left. */
  function CleanData(data: seq<Option<real>>): (r: seq<real>)
    ensures |r| > 0
  {
    var clean := Filter(DropNone(data), KeptBySecondFilter);
    if |clean| == 0 then [1.0, 1.0] else clean
  }

  /** The relative precision in percent, `(1 - std/mean) * 100`; undefined when the
      mean is zero. */
  function Precision(std: real, mean: real): (r: Option<real>)
    ensures r.None? <==> mean == 0.0
    ensures std == 0.0 && mean != 0.0 ==> r == Some(100.0)
    ensures r.Some? ==> r.value * mean == (mean - std) * 100.0
  {
    match Divide(std, mean)
    case Some(q) =>
      assert (1.0 - q) * mean == mean - std;
      Some((1.0 - q) * 100.0)
    case None => None
  }

  /** The six statistics of `hitung_statistik` on cleaned, non-empty data. */
  function Summarize(sqrt: real -> real, d: seq<real>): Summary
    requires |d| > 0
  {
    var mean := Mean(d);
    var std := sqrt(PopVariance(d));
    Summary(mean, Median(d), SeriesMode(d), std, Divide(std, sqrt(|d| as real)), Precision(std, mean))
  }

  function RoundOpt(round: real -> real, v: Option<real>): Option<real> {
    match v case Some(x) => Some(round(x)) case None => None
  }

  /** The names of the six statistics, in the order of the table. */
  const StatLabels: seq<string> :=
    ["Rata-rata", "Median", "Modus", "Standar Deviasi", "Ketidakpastian", "Ketelitian"]

  /** The table of a summary: each statistic rounded, next to its name. */
  function StatTable(round: real -> real, s: Summary): (r: seq<StatRow>)
    ensures |r| == |StatLabels|
    ensures forall i :: 0 <= i < |r| ==> r[i].statistik == StatLabels[i]
  {
    var values := [ Some(round(s.mean)), Some(round(s.median)), RoundOpt(round, s.mode),
                    Some(round(s.std)), RoundOpt(round, s.uncertainty), RoundOpt(round, s.precision) ];
    seq(|StatLabels|, i requires 0 <= i < |StatLabels| => StatRow(StatLabels[i], values[i]))
  }

  /** `hitung_statistik(data)`: the six statistics, rounded, in their fixed order. */
  function HitungStatistik(sqrt: real -> real, round: real -> real, data: seq<Option<real>>): (r: seq<StatRow>)
    ensures |r| == |StatLabels|
    ensures forall i :: 0 <= i < |r| ==> r[i].statistik == StatLabels[i]
  {
    StatTable(round, Summarize(sqrt, CleanData(data)))
  }

  /** `None` entries are dropped and every other value is summarised, or the
      placeholder when no value is left. */
  lemma CleanDataSpec(data: seq<Option<real>>)
    ensures (forall i :: 0 <= i < |data| ==> data[i].None?) ==> CleanData(data) == [1.0, 1.0]
    ensures (exists i :: 0 <= i < |data| && data[i].Some?) ==> CleanData(data) == DropNone(data)
  {
    SecondFilterKeepsAll(DropNone(data));
    if exists i :: 0 <= i < |data| && data[i].Some? {
      var i :| 0 <= i < |data| && data[i].Some?;
      assert data[i].value in DropNone(data);
    }
  }

  /** The data balance around the mean: the deviations from it sum to zero. */
  lemma SummarizeMean(sqrt: real -> real, d: seq<real>)
    requires |d| > 0
    ensures Sum(Deviations(d, Summarize(sqrt, d).mean)) == 0.0
  {
    MeanBalances(d);
  }

  /** The median is the middle value of the sorted data, or the average of the
      two middle values when the count is even; it splits the data in half: at
      least half of the values are at most it and at least half are at least it. */
  lemma SummarizeMedian(sqrt: real -> real, d: seq<real>)
    requires |d| > 0
    ensures |d| % 2 == 1 ==> Summarize(sqrt, d).median == Sort(d)[|d| / 2]
    ensures |d| % 2 == 0 ==> 2.0 * Summarize(sqrt, d).median == Sort(d)[|d| / 2 - 1] + Sort(d)[|d| / 2]
    ensures 2 * CountAtMost(d, Summarize(sqrt, d).median) >= |d|
    ensures 2 * CountAtLeast(d, Summarize(sqrt, d).median) >= |d|
  {
    MedianMiddle(d);
    MedianSplitsInHalf(d);
  }

  /** The mode is always present; it is a value of the data, no value occurs more
      often, and it is the smallest of the values that occur as often. */
  lemma SummarizeMode(sqrt: real -> real, d: seq<real>)
    requires |d| > 0
    ensures Summarize(sqrt, d).mode.Some?
    ensures Summarize(sqrt, d).mode.value in d
    ensures forall x :: x in d ==> Occurrences(d, x) <= Occurrences(d, Summarize(sqrt, d).mode.value)
    ensures forall x :: x in d && Occurrences(d, x) == Occurrences(d, Summarize(sqrt, d).mode.value)
                        ==> Summarize(sqrt, d).mode.value <= x
  {
  }

  /** The standard deviation is never negative and is zero exactly when all values
      are equal; the uncertainty is always defined and is the standard deviation
      over the root of the count; the precision is undefined exactly when the mean
      is zero. */
  lemma SummarizeSpread(sqrt: real -> real, d: seq<real>)
    requires IsSqrt(sqrt)
    requires |d| > 0
    ensures Summarize(sqrt, d).std >= 0.0
    ensures Sq(Summarize(sqrt, d).std) == PopVariance(d)
    ensures Summarize(sqrt, d).std == 0.0 <==> forall i :: 0 <= i < |d| ==> d[i] == d[0]
    ensures Summarize(sqrt, d).uncertainty == Some(Summarize(sqrt, d).std / sqrt(|d| as real))
    ensures Summarize(sqrt, d).precision.None? <==> Summarize(sqrt, d).mean == 0.0
  {
    PopVarianceZero(d);
    SqrtIsZero(sqrt, PopVariance(d));
    SqrtIsZero(sqrt, |d| as real);
  }

  /** The placeholder series `[1.0, 1.0]` sorts to itself. */
  lemma SortPlaceholder()
    ensures Sort([1.0, 1.0]) == [1.0, 1.0]
  {
    assert [1.0, 1.0][1..] == [1.0];
    assert Sort([1.0]) == [1.0];
  }

  lemma MedianPlaceholder()
    ensures Median([1.0, 1.0]) == 1.0
  {
    SortPlaceholder();
  }

  lemma ModePlaceholder()
    ensures SeriesMode([1.0, 1.0]) == Some(1.0)
  {
  }

  lemma SpreadPlaceholder(sqrt: real -> real)
    requires IsSqrt(sqrt)
    ensures Mean([1.0, 1.0]) == 1.0
    ensures sqrt(PopVariance([1.0, 1.0])) == 0.0
  {
    PopVarianceZero([1.0, 1.0]);
    MeanConstant([1.0, 1.0], 1.0);
    SqrtZero(sqrt);
  }

  /** The summary of the placeholder series: mean, median and mode 1, no spread,
      full precision. */
  lemma SummarizePlaceholder(sqrt: real -> real)
    requires IsSqrt(sqrt)
    ensures Summarize(sqrt, [1.0, 1.0]) == Summary(1.0, 1.0, Some(1.0), 0.0, Some(0.0), Some(100.0))
  {
    MedianPlaceholder();
    ModePlaceholder();
    SpreadPlaceholder(sqrt);
    SqrtIsZero(sqrt, 2.0);
  }

  /** With no value to summarise the table reports the placeholder statistics. */
  lemma HitungStatistikPlaceholder(sqrt: real -> real, round: real -> real, data: seq<Option<real>>)
    requires IsSqrt(sqrt)
    requires forall i :: 0 <= i < |data| ==> data[i].None?
    ensures HitungStatistik(sqrt, round, data)
            == StatTable(round, Summary(1.0, 1.0, Some(1.0), 0.0, Some(0.0), Some(100.0)))
  {
    CleanDataSpec(data);
    SummarizePlaceholder(sqrt);
  }

  /** The height table of `analisis_data`: each recorded distance subtracted from
      the initial height. */
  function HeightRows(rows: seq<Row>, initH: real): (r: seq<Row>)
    ensures |r| == |rows|
    ensures forall i :: 0 <= i < |rows| ==> r[i] == Row(rows[i].datetime, initH - rows[i].high)
  {
    seq(|rows|, i requires 0 <= i < |rows| => Row(rows[i].datetime, initH - rows[i].high))
  }

  /** The rounded apex heights the dashboard passes to `hitung_koefisien`. */
  function ApexHeights(round: real -> real, rows: seq<Row>, initH: real, minHeight: real): seq<real> {
    Highs(ListPosisiPuncak(HeightRows(rows, initH), minHeight, round))
  }

  /** The apexes are the rounded heights at the peak positions of the height
      series, in order; a position is a peak exactly when it is the middle of a
      flat top of the heights that lies above the minimum. */
  lemma ApexHeightsSpec(round: real -> real, rows: seq<Row>, initH: real, minHeight: real, k: nat)
    ensures var idx := PeakIndices(HeightRows(rows, initH), minHeight);
            var a := ApexHeights(round, rows, initH, minHeight);
            && |a| == |idx|
            && (forall j :: 0 <= j < |idx| ==> idx[j] < |rows| && a[j] == round(initH - rows[idx[j]].high))
            && (k in idx <==> k < |rows| && initH - rows[k].high > minHeight
                              && PeakFrom(Highs(HeightRows(rows, initH)), 1, k))
  {
    ListPosisiPuncakSpec(HeightRows(rows, initH), minHeight, round, k);
  }

  /** The `Koefisien Restitusi` column of a coefficient table. */
  function KoefisienValues(koef: seq<KoefRow>): (c: seq<real>)
    ensures |c| == |koef|
    ensures forall j :: 0 <= j < |koef| ==> c[j] == koef[j].koefisien
  {
    seq(|koef|, j requires 0 <= j < |koef| => koef[j].koefisien)
  }

  /** A bounce is eligible when it is above the floor and strictly lower than
      the height it is compared with. */
  predicate Eligible(a: seq<real>, h0: real, i: nat)
    requires i < |a|
  {
    0.0 < a[i] < Previous(a, h0, i)
  }

  /** The coefficient column of `hitung_koefisien(a, h0)`: each value is the
      rounded root of the ratio of an eligible bounce to the height before it,
      every eligible bounce contributes its value, and the column is empty
      exactly when no bounce is eligible. */
  lemma KoefisienValuesSpec(sqrt: real -> real, round: real -> real, a: seq<real>, h0: real)
    requires IsSqrt(sqrt)
    ensures var c := KoefisienValues(HitungKoefisien(sqrt, round, a, h0));
            && (forall j :: 0 <= j < |c| ==>
                  exists i :: 0 <= i < |a| && Eligible(a, h0, i)
                              && c[j] == round(sqrt(a[i] / Previous(a, h0, i))))
            && (forall i :: 0 <= i < |a| && Eligible(a, h0, i) ==>
                  round(sqrt(a[i] / Previous(a, h0, i))) in c)
            && (c == [] <==> forall i :: 0 <= i < |a| ==> !Eligible(a, h0, i))
  {
    var koef := HitungKoefisien(sqrt, round, a, h0);
    var c := KoefisienValues(koef);
    forall j | 0 <= j < |c|
      ensures exists i :: 0 <= i < |a| && Eligible(a, h0, i)
                          && c[j] == round(sqrt(a[i] / Previous(a, h0, i)))
    {
      var i := koef[j].no;
      assert Eligible(a, h0, i);
    }
    forall i | 0 <= i < |a| && Eligible(a, h0, i)
      ensures round(sqrt(a[i] / Previous(a, h0, i))) in c
    {
      HitungKoefisienSpec(sqrt, round, a, h0, i);
      var j :| 0 <= j < |koef| && koef[j].no == i;
      assert c[j] == koef[j].koefisien;
    }
    if c != [] {
      var i := koef[0].no;
      assert Eligible(a, h0, i);
    }
  }

  /** The coefficient values `analisis_data` summarises, in table order. */
  function BounceCoefficients(sqrt: real -> real, round: real -> real, rows: seq<Row>, initH: real, minHeight: real): seq<real> {
    KoefisienValues(HitungKoefisien(sqrt, round, ApexHeights(round, rows, initH, minHeight), initH))
  }

  /** The entries `analisis_data` hands to `hitung_statistik`: every value present. */
  function Present(c: seq<real>): (r: seq<Option<real>>)
    ensures |r| == |c|
    ensures forall j :: 0 <= j < |c| ==> r[j] == Some(c[j])
  {
    seq(|c|, j requires 0 <= j < |c| => Some(c[j]))
  }

  /** Dropping the missing entries of an all-present series gives the values back. */
  lemma {:induction false} DropNonePresent(c: seq<real>)
    ensures DropNone(Present(c)) == c
  {
    if |c| > 0 {
      assert Present(c)[1..] == Present(c[1..]);
      DropNonePresent(c[1..]);
    }
  }

  /** The dashboard's analysis (app.py, `analisis_data`): heights are the initial
      height minus the recorded distance, the peaks above `minHeight` are the
      bounces, the first bounce is compared with the initial height, and the
      coefficients are summarised. */
  function AnalisisData(sqrt: real -> real, round: real -> real, rows: seq<Row>, initH: real, minHeight: real): (r: seq<StatRow>)
    ensures |r| == 6
    ensures forall i :: 0 <= i < |r| ==> r[i].statistik == StatLabels[i]
  {
    HitungStatistik(sqrt, round, Present(BounceCoefficients(sqrt, round, rows, initH, minHeight)))
  }

  /** The table summarises exactly the bounce coefficients, or shows the
      placeholder statistics when there is none, which is when no apex is above
      the floor and below the height before it. */
  lemma AnalisisDataSpec(sqrt: real -> real, round: real -> real, rows: seq<Row>, initH: real, minHeight: real)
    requires IsSqrt(sqrt)
    ensures var a := ApexHeights(round, rows, initH, minHeight);
            var c := BounceCoefficients(sqrt, round, rows, initH, minHeight);
            var r := AnalisisData(sqrt, round, rows, initH, minHeight);
            && (c == [] <==> forall i :: 0 <= i < |a| ==> !Eligible(a, initH, i))
            && (c == [] ==> r == StatTable(round, Summary(1.0, 1.0, Some(1.0), 0.0, Some(0.0), Some(100.0))))
            && (c != [] ==> r == StatTable(round, Summarize(sqrt, c)))
  {
    var c := BounceCoefficients(sqrt, round, rows, initH, minHeight);
    KoefisienValuesSpec(sqrt, round, ApexHeights(round, rows, initH, minHeight), initH);
    if c == [] {
      HitungStatistikPlaceholder(sqrt, round, Present(c));
    } else {
      DropNonePresent(c);
      CleanDataSpec(Present(c));
      assert Present(c)[0].Some?;
    }
  }

  /** Fewer than three recorded rows leave no peak, so the dashboard shows the
      placeholder statistics. */
  lemma AnalisisDataShortSeries(sqrt: real -> real, round: real -> real, rows: seq<Row>, initH: real, minHeight: real)
    requires IsSqrt(sqrt)
    requires |rows| < 3
    ensures AnalisisData(sqrt, round, rows, initH, minHeight)
            == StatTable(round, Summary(1.0, 1.0, Some(1.0), 0.0, Some(0.0), Some(100.0)))
  {
    var heights := HeightRows(rows, initH);
    assert |Highs(heights)| < 3;
    assert PeakIndices(heights, minHeight) == [];
    assert ApexHeights(round, rows, initH, minHeight) == [];
    AnalisisDataSpec(sqrt, round, rows, initH, minHeight);
  }
}

=== FILE: arduino.dfy ===
/** The pieces of the Arduino runtime both firmware programs lean on: 32-bit
    `unsigned long` arithmetic for the millisecond and microsecond clocks, and
    `String::toInt()`, which is the C library's `atol`, that is `strtol` in base
    10 on a 32-bit `long`. */
module Arduino {
  import opened Strings

  const Modulus: int := 0x1_0000_0000
  const LongMin: int := -0x8000_0000
  const LongMax: int := 0x7FFF_FFFF

  /** `unsigned long` on the ESP8266 and the ESP32. */
  newtype ULong = x: int | 0 <= x < 0x1_0000_0000

  /** `now - last` on `unsigned long`: the difference taken modulo 2^32. */
  function Elapsed(now: ULong, last: ULong): (r: ULong)
    ensures (last as int + r as int) % Modulus == now as int
  {
    if now >= last then now - last else (now as int + Modulus - last as int) as ULong
  }

  /** If `now` lies `t` ticks after `last` on the wrapping clock, the elapsed time
      is `t`, also when the counter has rolled over in between. */
  lemma ElapsedAfter(last: ULong, t: ULong)
    ensures Elapsed(((last as int + t as int) % Modulus) as ULong, last) == t
  {
  }

  /** A rollover between two reads does not stop a periodic task: 0xFFFF_FFF0
      and 5 are 21 ticks apart. */
  lemma ElapsedAcrossRollover()
    ensures Elapsed(5, 0xFFFF_FFF0) == 21
  {
  }

  /** The characters C's `isspace` accepts in the "C" locale. */
  predicate IsCSpace(c: char) {
    c == ' ' || c == '\t' || c == '\n' || c == '\U{B}' || c == '\U{C}' || c == '\r'
  }

  /** The number of leading `isspace` characters. */
  function LeadingCSpace(s: string): (n: nat)
    ensures n <= |s|
    ensures forall i :: 0 <= i < n ==> IsCSpace(s[i])
    ensures n < |s| ==> !IsCSpace(s[n])
  {
    if |s| == 0 || !IsCSpace(s[0]) then 0 else 1 + LeadingCSpace(s[1..])
  }

  /** The number of leading decimal digits. */
  function DigitRun(s: string): (n: nat)
    ensures n <= |s|
    ensures forall i :: 0 <= i < n ==> IsDigit(s[i])
    ensures n < |s| ==> !IsDigit(s[n])
  {
    if |s| == 0 || !IsDigit(s[0]) then 0 else 1 + DigitRun(s[1..])
  }

  /** `strtol` keeps an out-of-range result at `LONG_MIN` or `LONG_MAX`. */
  function Saturate(v: int): (r: int)
    ensures LongMin <= r <= LongMax
    ensures LongMin <= v <= LongMax ==> r == v
    ensures v > LongMax ==> r == LongMax
    ensures v < LongMin ==> r == LongMin
  {
    if v > LongMax then LongMax else if v < LongMin then LongMin else v
  }

  /** The value of the digits at the front of `u`; none gives 0. */
  function Unsigned(u: string): nat {
    DigitsValue(u[..DigitRun(u)])
  }

  /** An optional sign followed by digits. */
  function Signed(t: string): int {
    if |t| > 0 && t[0] == '-' then -(Unsigned(t[1..]) as int)
    else if |t| > 0 && t[0] == '+' then Unsigned(t[1..])
    else Unsigned(t)
  }

  /** `String::toInt()`: skip white space, read an optional sign and then as many
      digits as there are; no digits gives 0. */
  function ToLong(s: string): (r: int)
    ensures LongMin <= r <= LongMax
  {
    Saturate(Signed(s[LeadingCSpace(s)..]))
  }

  /** Text that does not start (after white space) with a sign or a digit reads
      as 0. */
  lemma ToLongNoNumber(s: string)
    requires var t := s[LeadingCSpace(s)..];
             |t| == 0 || (t[0] != '-' && t[0] != '+' && !IsDigit(t[0]))
    ensures ToLong(s) == 0
  {
  }

  /** Reading back the decimal rendering of a `long` gives it back, whatever
      follows the digits as long as it is not a digit. */
  lemma ToLongIntToString(n: int, rest: string)
    requires LongMin <= n <= LongMax
    requires |rest| == 0 || !IsDigit(rest[0])
    ensures ToLong(IntToString(n) + rest) == n
  {
    if n < 0 {
      ToLongNegative(-n, rest);
    } else {
      ToLongNonNegative(n, rest);
    }
  }

  lemma ToLongNonNegative(m: nat, rest: string)
    requires m <= LongMax
    requires |rest| == 0 || !IsDigit(rest[0])
    ensures ToLong(NatToString(m) + rest) == m
  {
    var digits := NatToString(m);
    DigitsValueOfNat(m);
    UnsignedDigits(digits, rest);
    NoSpaceFirst(digits + rest);
  }

  lemma ToLongNegative(m: nat, rest: string)
    requires 0 < m <= -LongMin
    requires |rest| == 0 || !IsDigit(rest[0])
    ensures ToLong("-" + NatToString(m) + rest) == -(m as int)
  {
    var digits := NatToString(m);
    DigitsValueOfNat(m);
    UnsignedDigits(digits, rest);
    assert "-" + NatToString(m) + rest == "-" + (digits + rest);
    NegativeText("-" + (digits + rest), digits + rest);
  }

  lemma NoSpaceFirst(s: string)
    requires |s| > 0 && !IsCSpace(s[0])
    ensures s[LeadingCSpace(s)..] == s
  {
  }

  lemma NegativeText(s: string, u: string)
    requires s == "-" + u
    ensures ToLong(s) == Saturate(-(Unsigned(u) as int))
  {
    NoSpaceFirst(s);
    assert s[1..] == u;
  }

  lemma UnsignedDigits(digits: string, rest: string)
    requires forall i :: 0 <= i < |digits| ==> IsDigit(digits[i])
    requires |rest| == 0 || !IsDigit(rest[0])
    ensures Unsigned(digits + rest) == DigitsValue(digits)
  {
    DigitRunPrefix(digits, rest);
    assert (digits + rest)[..|digits|] == digits;
  }

  lemma {:induction false} DigitRunPrefix(digits: string, rest: string)
    requires forall i :: 0 <= i < |digits| ==> IsDigit(digits[i])
    requires |rest| == 0 || !IsDigit(rest[0])
    ensures DigitRun(digits + rest) == |digits|
  {
    if |digits| > 0 {
      assert (digits + rest)[1..] == digits[1..] + rest;
      DigitRunPrefix(digits[1..], rest);
    } else {
      assert digits + rest == rest;
    }
  }

  /** Assigning a `long` to an `unsigned long`: the value modulo 2^32. */
  function ToULong(v: int): (r: ULong)
    requires LongMin <= v <= LongMax
    ensures r as int % Modulus == v % Modulus
  {
    if v < 0 then (v + Modulus) as ULong else v as ULong
  }

  /** A negative `long` becomes a large `unsigned long`: 2^31 or more. */
  lemma NegativeWraps(v: int)
    requires LongMin <= v < 0
    ensures ToULong(v) as int == v + Modulus >= 0x8000_0000
  {
  }

  /** `duration * 0.034 / 2` stored in a `long` (platformio/src/main.ino.cpp
      line 96, src/main.cpp line 52): the centimetres an HC-SR04 echo of
      `duration` microseconds stands for at 340 m/s, truncated. */
  function EchoDistance(duration: ULong): (r: int)
    ensures 0 <= r <= LongMax
    ensures r * 1000 <= duration as int * 17 < (r + 1) * 1000
  {
    duration as int * 17 / 1000
  }
}

=== FILE: basics.dfy ===
/** Small vocabulary shared by every module of the model: an optional value
    (Python's `None`, a missing argument, a value that is not a number) and
    order-preserving filtering of sequences (Python's `[x for x in s if p(x)]`). */
module Basics {

  datatype Option<+T> = None | Some(value: T) {
    function GetOr(default: T): T {
      match this
      case Some(v) => v
      case None => default
    }
  }

  /** The elements of `s` that satisfy `p`, in their original order. */
  function Filter<T(==)>(s: seq<T>, p: T -> bool): (r: seq<T>)
    ensures |r| <= |s|
    ensures forall i :: 0 <= i < |r| ==> r[i] in s && p(r[i])
    ensures forall i :: 0 <= i < |s| && p(s[i]) ==> s[i] in r
  {
    if |s| == 0 then []
    else (if p(s[0]) then [s[0]] else []) + Filter(s[1..], p)
  }

  lemma {:induction false} FilterAppend<T>(a: seq<T>, b: seq<T>, p: T -> bool)
    ensures Filter(a + b, p) == Filter(a, p) + Filter(b, p)
  {
    if |a| == 0 {
      assert a + b == b;
    } else {
      assert (a + b)[1..] == a[1..] + b;
      FilterAppend(a[1..], b, p);
    }
  }

  /** Filtering keeps every element when all of them pass. */
  lemma {:induction false} FilterAll<T>(s: seq<T>, p: T -> bool)
    requires forall i :: 0 <= i < |s| ==> p(s[i])
    ensures Filter(s, p) == s
  {
    if |s| > 0 {
      FilterAll(s[1..], p);
    }
  }

  /** Filtering keeps the relative order: a relation that holds between every
      earlier and later element of `s` still holds in the filtered sequence. */
  lemma {:induction false} FilterKeepsOrder<T>(s: seq<T>, p: T -> bool, before: (T, T) -> bool)
    requires forall i, j :: 0 <= i < j < |s| ==> before(s[i], s[j])
    ensures forall i, j :: 0 <= i < j < |Filter(s, p)| ==> before(Filter(s, p)[i], Filter(s, p)[j])
  {
    if |s| > 0 {
      var tail := Filter(s[1..], p);
      FilterKeepsOrder(s[1..], p, before);
      forall y | y in tail
        ensures before(s[0], y)
      {
        var k :| 0 <= k < |s[1..]| && s[1..][k] == y;
        assert s[k + 1] == y;
      }
    }
  }

  /** When the first `k` elements pass, at least `k` elements pass. */
  lemma FilterPrefixCount<T>(s: seq<T>, k: nat, p: T -> bool)
    requires k <= |s|
    requires forall i :: 0 <= i < k ==> p(s[i])
    ensures |Filter(s, p)| >= k
  {
    var pre, post := s[..k], s[k..];
    assert forall i :: 0 <= i < |pre| ==> pre[i] == s[i];
    FilterAll(pre, p);
    assert s == pre + post;
    FilterAppend(pre, post, p);
  }

  /** When the elements from index `k` on pass, at least `|s| - k` elements pass. */
  lemma FilterSuffixCount<T>(s: seq<T>, k: nat, p: T -> bool)
    requires k <= |s|
    requires forall i :: k <= i < |s| ==> p(s[i])
    ensures |Filter(s, p)| >= |s| - k
  {
    var post := s[k..];
    assert forall i :: 0 <= i < |post| ==> post[i] == s[k + i];
    FilterAll(post, p);
    assert s == s[..k] + post;
    FilterAppend(s[..k], post, p);
  }

  lemma SplitAt<T>(b: seq<T>, k: nat)
    requires k < |b|
    ensures b[..k] + ([b[k]] + b[k + 1..]) == b
  {
  }

  lemma MultisetRemoveAt<T>(b: seq<T>, k: nat)
    requires k < |b|
    ensures multiset(b[..k] + b[k + 1..]) == multiset(b) - multiset{b[k]}
  {
    assert b == b[..k] + [b[k]] + b[k + 1..];
    assert multiset(b) == multiset(b[..k]) + multiset{b[k]} + multiset(b[k + 1..]);
  }

  /** Taking one element out of a sequence lowers the filtered count by that element's share. */
  lemma FilterCountRemoveAt<T>(b: seq<T>, k: nat, p: T -> bool)
    requires k < |b|
    ensures |Filter(b, p)| == |Filter(b[..k] + b[k + 1..], p)| + |Filter([b[k]], p)|
  {
    FilterAppend(b[..k], b[k + 1..], p);
    FilterAppend([b[k]], b[k + 1..], p);
    FilterAppend(b[..k], [b[k]] + b[k + 1..], p);
    SplitAt(b, k);
  }

  /** The number of elements passing `p` does not depend on their order. */
  lemma {:induction false} FilterCountPermutation<T>(a: seq<T>, b: seq<T>, p: T -> bool)
    requires multiset(a) == multiset(b)
    ensures |Filter(a, p)| == |Filter(b, p)|
    decreases |a|
  {
    if |a| == 0 {
      assert |b| == |multiset(b)| == 0;
    } else {
      var x := a[0];
      assert x in multiset(b);
      assert x in b;
      var k :| 0 <= k < |b| && b[k] == x;
      var rest := b[..k] + b[k + 1..];
      MultisetRemoveAt(b, k);
      assert a == [x] + a[1..];
      assert multiset(a[1..]) == multiset(a) - multiset{x};
      FilterCountPermutation(a[1..], rest, p);
      FilterCountRemoveAt(b, k, p);
    }
  }
}

=== FILE: json.dfy ===
/** An MQTT message payload as the Python programs see it: the bytes are decoded as
    UTF-8 (`msg.payload.decode()`) and then handed to `json.loads`. The decoding
    and the JSON grammar are not modelled; a payload arrives already classified. */
module Json {
  import opened Basics

  /** A value `json.loads` can return. Integers and floats are both numbers;
      NaN and the infinities are not modelled. */
  datatype JsonValue =
    | JNull
    | JBool(b: bool)
    | JNum(n: real)
    | JStr(s: string)
    | JArray(items: seq<JsonValue>)
    | JObject(fields: map<string, JsonValue>)

  /** A received payload: valid JSON, text that is valid UTF-8 but not JSON, or
      bytes that are not valid UTF-8. */
  datatype Payload = Json(value: JsonValue) | Text(text: string) | Undecodable

  /** `obj.get(key, default)` on a JSON object. */
  function Get(obj: map<string, JsonValue>, key: string, default: JsonValue): (r: JsonValue)
    ensures key in obj ==> r == obj[key]
    ensures key !in obj ==> r == default
  {
    if key in obj then obj[key] else default
  }

  /** The number Python sees in a JSON value: `isinstance(v, (int, float))`, where a
      boolean is an integer (`True == 1`). */
  function AsNumber(v: JsonValue): (r: Option<real>)
    ensures r.Some? <==> v.JNum? || v.JBool?
    ensures v.JNum? ==> r == Some(v.n)
    ensures v.JBool? ==> r == Some(if v.b then 1.0 else 0.0)
  {
    match v
    case JNum(n) => Some(n)
    case JBool(b) => Some(if b then 1.0 else 0.0)
    case _ => None
  }
}

=== FILE: jsontext.dfy ===
/** JSON string literals as text (section 7 of RFC 8259): how a reader takes the
    characters of a string value up to its closing quote, and an escaping that
    lets any text be written inside quotes and read back unchanged. */
module JsonText {
  import opened Basics

  /** The character a one-letter escape `\x` stands for. */
  function ShortEscape(c: char): (r: Option<char>)
    ensures r.Some? <==> c in "\"\\/bfnrt"
  {
    match c
    case '"' => Some('"')
    case '\\' => Some('\\')
    case '/' => Some('/')
    case 'b' => Some('\U{8}')
    case 'f' => Some('\U{C}')
    case 'n' => Some('\n')
    case 'r' => Some('\r')
    case 't' => Some('\t')
    case _ => None
  }

  /** The value of a hexadecimal digit. */
  function HexValue(c: char): (r: Option<nat>)
    ensures r.Some? ==> r.value < 16
  {
    if '0' <= c <= '9' then Some(c as int - '0' as int)
    else if 'a' <= c <= 'f' then Some(c as int - 'a' as int + 10)
    else if 'A' <= c <= 'F' then Some(c as int - 'A' as int + 10)
    else None
  }

  /** The lower-case hexadecimal digit for `d`. */
  function HexDigit(d: nat): (c: char)
    requires d < 16
    ensures HexValue(c) == Some(d)
  {
    if d < 10 then ('0' as int + d) as char else ('a' as int + d - 10) as char
  }

  /** The character named by the four hexadecimal digits of a `\uXXXX` escape;
      a lone surrogate half is not a character and is not read. */
  function FourHex(s: string): (r: Option<char>)
    requires |s| == 4
  {
    match (HexValue(s[0]), HexValue(s[1]), HexValue(s[2]), HexValue(s[3]))
    case (Some(a), Some(b), Some(c), Some(d)) =>
      var v := ((a * 16 + b) * 16 + c) * 16 + d;
      if 0xD800 <= v < 0xE000 then None else Some(v as char)
    case _ => None
  }

  /** Reads the rest of a string literal whose opening quote has been consumed:
      the characters it denotes and the text after the closing quote. Raw control
      characters, unknown escapes and a missing closing quote are errors. */
  function ReadString(s: string): (r: Option<(string, string)>)
    ensures r.Some? ==> |r.value.1| < |s|
    decreases |s|
  {
    if |s| == 0 then None
    else if s[0] == '"' then Some(("", s[1..]))
    else if s[0] < ' ' then None
    else if s[0] != '\\' then
      match ReadString(s[1..])
      case Some((v, rest)) => Some(([s[0]] + v, rest))
      case None => None
    else if |s| >= 2 && ShortEscape(s[1]).Some? then
      match ReadString(s[2..])
      case Some((v, rest)) => Some(([ShortEscape(s[1]).value] + v, rest))
      case None => None
    else if |s| >= 6 && s[1] == 'u' && FourHex(s[2..6]).Some? then
      match ReadString(s[6..])
      case Some((v, rest)) => Some(([FourHex(s[2..6]).value] + v, rest))
      case None => None
    else None
  }

  /** How a character is written inside a string literal: quote and backslash
      escaped, control characters by their short escape or as `\u00XX`. */
  function EscapeChar(c: char): (r: string)
    ensures |r| >= 1
    ensures r[0] == '\\' || (c == r[0] && |r| == 1 && c >= ' ' && c != '"')
  {
    if c == '"' then "\\\""
    else if c == '\\' then "\\\\"
    else if c == '\U{8}' then "\\b"
    else if c == '\U{C}' then "\\f"
    else if c == '\n' then "\\n"
    else if c == '\r' then "\\r"
    else if c == '\t' then "\\t"
    else if c < ' ' then "\\u00" + [HexDigit(c as int / 16), HexDigit(c as int % 16)]
    else [c]
  }

  /** The escaped form of a text. */
  function Escape(s: string): (r: string)
    ensures |r| >= |s|
  {
    if |s| == 0 then "" else EscapeChar(s[0]) + Escape(s[1..])
  }

  /** Reading an escaped character gives it back and continues after it. */
  lemma ReadEscapedChar(c: char, rest: string)
    ensures ReadString(EscapeChar(c) + rest) ==
              match ReadString(rest)
              case Some((v, tail)) => Some(([c] + v, tail))
              case None => None
  {
    var s := EscapeChar(c) + rest;
    if c < ' ' && c != '\U{8}' && c != '\U{C}' && c != '\n' && c != '\r' && c != '\t' {
      var hi := c as int / 16;
      var lo := c as int % 16;
      assert s[2..6] == ['0', '0', HexDigit(hi), HexDigit(lo)];
      assert s[6..] == rest;
      assert FourHex(s[2..6]) == Some(c);
    } else if EscapeChar(c)[0] == '\\' {
      assert s[2..] == rest;
    } else {
      assert s[1..] == rest;
    }
  }

  /** Any text, escaped and followed by a closing quote, reads back as itself,
      and the reader stops right after that quote. */
  lemma {:induction false} ReadEscape(name: string, tail: string)
    ensures ReadString(Escape(name) + "\"" + tail) == Some((name, tail))
  {
    if |name| == 0 {
      assert Escape(name) + "\"" + tail == "\"" + tail;
      assert ("\"" + tail)[1..] == tail;
    } else {
      ReadEscape(name[1..], tail);
      assert Escape(name) + "\"" + tail == EscapeChar(name[0]) + (Escape(name[1..]) + "\"" + tail);
      ReadEscapedChar(name[0], Escape(name[1..]) + "\"" + tail);
      assert [name[0]] + name[1..] == name;
    }
  }
}

=== FILE: monitor.dfy ===
/** The desktop monitor (python/main.py): the MQTT message handler that turns
    sensor messages into samples, the collection controls, the bounce detector's
    length guard and the restitution coefficients of consecutive bounces. The
    clock (`time.time()`), the float parser, the low-pass filter and `find_peaks`
    with its height and distance conditions are parameters; the Tk widgets and the
    plot are not modelled. */
module Monitor {
  import opened Basics
  import opened RealMath
  import opened Strings
  import opened Json

  /** The module-level variables the handler and the controls share. */
  datatype MonitorState = MonitorState(
    collecting: bool,
    startTime: Option<real>,
    timeData: seq<real>,
    distanceData: seq<real>,
    updateNeeded: bool)

  /** The state at start-up (lines 14-18). */
  const Initial := MonitorState(false, None, [], [], false)

  /** Largest distance accepted, in cm. */
  const MaxDistance: real := 400.0

  /** The two sample series have one entry per stored sample. */
  predicate Paired(s: MonitorState) {
    |s.timeData| == |s.distanceData|
  }

  /** `s` with one more sample. */
  function Store(s: MonitorState, t: real, d: real): MonitorState {
    s.(timeData := s.timeData + [t], distanceData := s.distanceData + [d], updateNeeded := true)
  }

  /** Lines 160-186: a text message is `key:value` with the key `distance` or
      `dist` in any case, or a bare number; otherwise it is rejected. */
  function ParseText(text: string, parseFloat: string -> Option<real>): (r: Option<real>)
    // a text with a colon gives a value only when it has one colon, the text
    // before it is a distance key, and the value is what follows it
    ensures ':' in Strip(text) && r.Some? ==>
              exists i :: 0 <= i < |Strip(text)| && Strip(text)[i] == ':'
                && ':' !in Strip(text)[..i] && ':' !in Strip(text)[i + 1..]
                && IsDistanceKey(Strip(text)[..i]) && r == parseFloat(Strip(text)[i + 1..])
  {
    var msg := Strip(text);
    if ':' in msg then
      var parts := Split(msg, ':');
      if |parts| == 2 && IsDistanceKey(parts[0]) then
        SplitPair(msg, ':');
        parseFloat(parts[1])
      else None
    else parseFloat(msg)
  }

  /** The keys a `key:value` text may carry: `distance` or `dist` in any case. */
  predicate IsDistanceKey(key: string) {
    AsciiLower(key) == "distance" || AsciiLower(key) == "dist"
  }

  /** Lines 142-186: the time and distance fields of a message, or `None` when the
      message is dropped before validation. A JSON object takes `timestamp`, else
      `time`, else 0, and `distance`, else `dist`, else 0; an object carrying
      `status` or `error`, and JSON that is not an object, are dropped; a text
      message has time 0. */
  function ReadFields(payload: Payload, parseFloat: string -> Option<real>): (r: Option<(JsonValue, JsonValue)>)
    ensures payload.Undecodable? ==> r.None?
    ensures payload.Json? && !payload.value.JObject? ==> r.None?
    ensures payload.Text? ==> r.Some? ==> r.value.0 == JNum(0.0) && r.value.1.JNum?
  {
    match payload
    case Undecodable => None
    case Json(v) =>
      if !v.JObject? then None
      else
        var m := v.fields;
        if "status" in m || "error" in m then None
        else Some((Get(m, "timestamp", Get(m, "time", JNum(0.0))), Get(m, "distance", Get(m, "dist", JNum(0.0)))))
    case Text(text) =>
      match ParseText(text, parseFloat)
      case Some(d) => Some((JNum(0.0), JNum(d)))
      case None => None
  }

  /** `on_message` (lines 132-215). While not collecting nothing happens. A
      message whose distance is not a number in `(0, 400]` is dropped; so is one
      whose time is not a number (the comparison `t > 0` raises and the handler
      catches it). A positive time is stored as it is; otherwise the time since
      the first local sample is stored, the clock starting at this message when it
      has not started yet. */
  function OnMessage(s: MonitorState, payload: Payload, parseFloat: string -> Option<real>, now: real): (r: MonitorState)
    ensures !s.collecting ==> r == s
    ensures r != s ==> |r.timeData| == |s.timeData| + 1 && r.timeData[..|s.timeData|] == s.timeData
    ensures r != s ==> |r.distanceData| == |s.distanceData| + 1 && r.distanceData[..|s.distanceData|] == s.distanceData
    ensures r != s ==> 0.0 < r.distanceData[|s.distanceData|] <= MaxDistance
    ensures r != s ==> r.collecting && r.updateNeeded
    ensures Paired(s) ==> Paired(r)
  {
    if !s.collecting then s
    else
      match ReadFields(payload, parseFloat)
      case None => s
      case Some((t, d)) =>
        match AsNumber(d)
        case None => s
        case Some(dv) =>
          if dv <= 0.0 || dv > MaxDistance then s
          else
            match AsNumber(t)
            case None => s
            case Some(tv) =>
              if tv > 0.0 then Store(s, tv, dv)
              else
                var start := s.startTime.GetOr(now);
                Store(s.(startTime := Some(start)), now - start, dv)
  }

  /** A JSON object with a `status` or `error` key, any JSON value that is not an
      object, and an undecodable payload leave the state unchanged. */
  lemma OnMessageDropsNonSamples(s: MonitorState, payload: Payload, parseFloat: string -> Option<real>, now: real)
    requires || payload.Undecodable?
             || (payload.Json? && !payload.value.JObject?)
             || (payload.Json? && payload.value.JObject?
                 && ("status" in payload.value.fields || "error" in payload.value.fields))
    ensures OnMessage(s, payload, parseFloat, now) == s
  {
  }

  /** A JSON object sample: the distance is taken from `distance`, else `dist`, and
      the time from `timestamp`, else `time`; a positive device time is stored
      as it is. A message is stored exactly when its distance is a number in
      `(0, 400]` and its time a number. */
  lemma OnMessageObject(s: MonitorState, m: map<string, JsonValue>, parseFloat: string -> Option<real>, now: real)
    requires s.collecting
    requires "status" !in m && "error" !in m
    ensures var r := OnMessage(s, Json(JObject(m)), parseFloat, now);
            var d := AsNumber(if "distance" in m then m["distance"] else if "dist" in m then m["dist"] else JNum(0.0));
            var t := AsNumber(if "timestamp" in m then m["timestamp"] else if "time" in m then m["time"] else JNum(0.0));
            && (r != s <==> d.Some? && 0.0 < d.value <= MaxDistance && t.Some?)
            && (r != s ==> r.distanceData == s.distanceData + [d.value])
            && (r != s && t.value > 0.0 ==> r.timeData == s.timeData + [t.value] && r.startTime == s.startTime)
  {
  }

  /** A `key:value` text sample is stored exactly when it splits into two parts,
      the key is `distance` or `dist` in any case, the value parses, and the
      distance is in range; its time is local. */
  lemma OnMessageKeyValue(s: MonitorState, text: string, parseFloat: string -> Option<real>, now: real)
    requires s.collecting
    requires ':' in Strip(text)
    ensures var r := OnMessage(s, Text(text), parseFloat, now);
            var parts := Split(Strip(text), ':');
            var keyOk := |parts| == 2 && IsDistanceKey(parts[0]);
            && (r != s <==> keyOk && parseFloat(parts[1]).Some?
                            && 0.0 < parseFloat(parts[1]).value <= MaxDistance)
            && (r != s ==> r.distanceData == s.distanceData + [parseFloat(parts[1]).value])
  {
  }

  /** A text without a colon is a bare number: it is stored iff it parses to a
      distance in range, and then that distance is appended. */
  lemma OnMessageBareNumber(s: MonitorState, text: string, parseFloat: string -> Option<real>, now: real)
    requires s.collecting
    requires ':' !in Strip(text)
    ensures var r := OnMessage(s, Text(text), parseFloat, now);
            var v := parseFloat(Strip(text));
            && (r != s <==> v.Some? && 0.0 < v.value <= MaxDistance)
            && (r != s ==> r.distanceData == s.distanceData + [v.value])
  {
  }

  /** A sample without a positive device time is stamped with the local clock: the
      first such sample starts the clock at time 0, later ones are measured from
      that start. */
  lemma OnMessageLocalClock(s: MonitorState, text: string, parseFloat: string -> Option<real>, now: real)
    requires s.collecting
    requires OnMessage(s, Text(text), parseFloat, now) != s
    ensures var r := OnMessage(s, Text(text), parseFloat, now);
            && (s.startTime.None? ==> r.startTime == Some(now) && r.timeData == s.timeData + [0.0])
            && (s.startTime.Some? ==> r.startTime == s.startTime && r.timeData == s.timeData + [now - s.startTime.value])
  {
  }

  /** `start_collection` (lines 252-262): collecting, with the clock started now;
      the stored samples are kept. */
  function StartCollection(s: MonitorState, now: real): (r: MonitorState)
    ensures r.collecting && r.startTime == Some(now) && r.updateNeeded
    ensures r.timeData == s.timeData && r.distanceData == s.distanceData
  {
    s.(collecting := true, startTime := Some(now), updateNeeded := true)
  }

  /** `stop_collection` (lines 264-273): not collecting; nothing else changes but
      the redraw flag. */
  function StopCollection(s: MonitorState): (r: MonitorState)
    ensures !r.collecting && r.updateNeeded
    ensures r.startTime == s.startTime && r.timeData == s.timeData && r.distanceData == s.distanceData
  {
    s.(collecting := false, updateNeeded := true)
  }

  /** `reset_data` (lines 275-286): no samples and no clock; collection goes on
      or stays stopped as it was. */
  function ResetData(s: MonitorState): (r: MonitorState)
    ensures r.timeData == [] && r.distanceData == [] && r.startTime.None?
    ensures r.collecting == s.collecting && r.updateNeeded
  {
    s.(timeData := [], distanceData := [], startTime := None, updateNeeded := true)
  }

  /** After a stop every message is ignored until collection starts again. */
  lemma StoppedIgnoresMessages(s: MonitorState, payload: Payload, parseFloat: string -> Option<real>, now: real)
    ensures OnMessage(StopCollection(s), payload, parseFloat, now) == StopCollection(s)
  {
  }

  /** After a reset the next stored local-time sample is the first one, at time 0. */
  lemma ResetRestartsClock(s: MonitorState, text: string, parseFloat: string -> Option<real>, now: real)
    requires s.collecting
    requires OnMessage(ResetData(s), Text(text), parseFloat, now) != ResetData(s)
    ensures OnMessage(ResetData(s), Text(text), parseFloat, now).timeData == [0.0]
  {
    OnMessageLocalClock(ResetData(s), text, parseFloat, now);
  }

  /** `[xs[p] for p in peaks if p < len(xs)]`. */
  function Pick(xs: seq<real>, peaks: seq<nat>): (r: seq<real>)
    ensures |r| <= |peaks|
    ensures forall j :: 0 <= j < |r| ==> r[j] in xs
    ensures (forall k :: 0 <= k < |peaks| ==> peaks[k] < |xs|) ==>
              |r| == |peaks| && forall k :: 0 <= k < |peaks| ==> r[k] == xs[peaks[k]]
  {
    if |peaks| == 0 then []
    else (if peaks[0] < |xs| then [xs[peaks[0]]] else []) + Pick(xs, peaks[1..])
  }

  /** Fewest samples `detect_bounces` looks at. */
  const MinBounceSamples := 20

  /** `detect_bounces` (lines 58-73): the times and distances at the peaks of the
      negated distances, or nothing for fewer than 20 samples. */
  function DetectBounces(findPeaks: seq<real> -> seq<nat>, distances: seq<real>, times: seq<real>): (r: (seq<real>, seq<real>))
    ensures |distances| < MinBounceSamples ==> r == ([], [])
    ensures forall j :: 0 <= j < |r.1| ==> r.1[j] in distances
    ensures forall j :: 0 <= j < |r.0| ==> r.0[j] in times
  {
    if |distances| < MinBounceSamples then ([], [])
    else
      var inverted := seq(|distances|, i requires 0 <= i < |distances| => -distances[i]);
      var peaks := findPeaks(inverted);
      (Pick(times, peaks), Pick(distances, peaks))
  }

  /** With as many times as distances, every bounce has both a time and a distance. */
  lemma DetectBouncesPaired(findPeaks: seq<real> -> seq<nat>, distances: seq<real>, times: seq<real>)
    requires |distances| == |times|
    ensures |DetectBounces(findPeaks, distances, times).0| == |DetectBounces(findPeaks, distances, times).1|
  {
    if |distances| >= MinBounceSamples {
      var inverted := seq(|distances|, i requires 0 <= i < |distances| => -distances[i]);
      PickSameLength(times, distances, findPeaks(inverted));
    }
  }

  lemma {:induction false} PickSameLength(xs: seq<real>, ys: seq<real>, peaks: seq<nat>)
    requires |xs| == |ys|
    ensures |Pick(xs, peaks)| == |Pick(ys, peaks)|
  {
    if |peaks| > 0 {
      PickSameLength(xs, ys, peaks[1..]);
    }
  }

  /** Reference definition of the coefficient loop (lines 93-96): for each bounce
      after the first, `sqrt(h[i] / h[i-1])` when the previous height is positive. */
  function PairCoefficients(sqrt: real -> real, h: seq<real>): (r: seq<real>)
    ensures |r| <= |h|
  {
    if |h| < 2 then []
    else
      PairCoefficients(sqrt, h[..|h| - 1])
      + (if h[|h| - 2] > 0.0 then [sqrt(Ratio(h[|h| - 2], h[|h| - 1]))] else [])
  }

  /** When every height is positive there is one coefficient per consecutive pair,
      in order: the `i`-th is the root of the ratio of bounce `i + 1` to bounce `i`. */
  lemma {:induction false} PairCoefficientsPositive(sqrt: real -> real, h: seq<real>)
    requires |h| > 0
    requires forall i :: 0 <= i < |h| ==> h[i] > 0.0
    ensures |PairCoefficients(sqrt, h)| == |h| - 1
    ensures forall i :: 0 <= i < |h| - 1 ==> PairCoefficients(sqrt, h)[i] == sqrt(Ratio(h[i], h[i + 1]))
  {
    if |h| >= 2 {
      var init := h[..|h| - 1];
      PairCoefficientsPositive(sqrt, init);
      assert forall i :: 0 <= i < |init| ==> init[i] == h[i];
    }
  }

  /** No coefficient comes out exactly when no height but the last is positive. */
  lemma {:induction false} PairCoefficientsEmpty(sqrt: real -> real, h: seq<real>)
    ensures PairCoefficients(sqrt, h) == [] <==> forall i :: 0 <= i < |h| - 1 ==> h[i] <= 0.0
  {
    if |h| >= 2 {
      var init := h[..|h| - 1];
      PairCoefficientsEmpty(sqrt, init);
      assert forall i :: 0 <= i < |init| ==> init[i] == h[i];
    }
  }

  /** The same, for heights measured down from `top`. */
  lemma DroppedHeightsEmpty(sqrt: real -> real, top: real, b: seq<real>, h: seq<real>)
    requires |h| == |b| && forall i :: 0 <= i < |b| ==> h[i] == top - b[i]
    ensures PairCoefficients(sqrt, h) == [] <==> forall i :: 0 <= i < |b| - 1 ==> top - b[i] <= 0.0
  {
    PairCoefficientsEmpty(sqrt, h);
  }

  /** The coefficient loop of `calculate_restitution_coefficient`. */
  method RestitutionCoefficients(sqrt: real -> real, heights: seq<real>) returns (c: seq<real>)
    ensures c == PairCoefficients(sqrt, heights)
  {
    c := [];
    if |heights| == 0 {
      return;
    }
    var i := 1;
    while i < |heights|
      invariant 1 <= i <= |heights|
      invariant c == PairCoefficients(sqrt, heights[..i])
    {
      assert heights[..i + 1][..i] == heights[..i];
      if heights[i - 1] > 0.0 {
        c := c + [sqrt(Ratio(heights[i - 1], heights[i]))];
      }
      i := i + 1;
    }
    assert heights[..i] == heights;
  }

  /** One coefficient per bounce whose predecessor is positive, each the root of
      the ratio of the two heights; for non-negative heights that never rise,
      every coefficient lies in `[0, 1]`. */
  lemma {:induction false} PairCoefficientsRange(sqrt: real -> real, h: seq<real>)
    requires IsSqrt(sqrt)
    requires forall i :: 0 <= i < |h| ==> h[i] >= 0.0
    requires forall i :: 1 <= i < |h| ==> h[i] <= h[i - 1]
    ensures forall j :: 0 <= j < |PairCoefficients(sqrt, h)| ==> 0.0 <= PairCoefficients(sqrt, h)[j] <= 1.0
  {
    if |h| >= 2 {
      var init := h[..|h| - 1];
      PairCoefficientsRange(sqrt, init);
      if h[|h| - 2] > 0.0 {
        var q := Ratio(h[|h| - 2], h[|h| - 1]);
        RatioRange(h[|h| - 2], h[|h| - 1]);
        SqrtVersusOne(sqrt, q);
      }
    }
  }

  /** What `calculate_restitution_coefficient` reports. */
  datatype Restitution =
    | NotEnoughData
    | TooFewBounces
    | NoCoefficient
    | Coefficients(heights: seq<real>, coefficients: seq<real>, average: real)

  /** Fewest samples the coefficient needs. */
  const MinRestitutionSamples := 50

  /** `calculate_restitution_coefficient` (lines 75-111): at least 50 samples, the
      low-pass filtered series, its bounces, heights measured down from the
      highest filtered distance, and the mean of the coefficients. */
  method CalculateRestitution(
    sqrt: real -> real, lowpass: seq<real> -> seq<real>, findPeaks: seq<real> -> seq<nat>, s: MonitorState)
    returns (r: Restitution)
    ensures |s.distanceData| < MinRestitutionSamples ==> r == NotEnoughData
    ensures r.Coefficients? ==> |r.heights| >= 2 && forall i :: 0 <= i < |r.heights| ==> r.heights[i] >= 0.0
    ensures r.Coefficients? ==> r.coefficients == PairCoefficients(sqrt, r.heights) && |r.coefficients| > 0
    ensures r.Coefficients? ==> r.average == Mean(r.coefficients)
    ensures var f := lowpass(s.distanceData);
            var b := DetectBounces(findPeaks, f, s.timeData).1;
            && (r == TooFewBounces <==> |s.distanceData| >= MinRestitutionSamples && |b| < 2)
            && (r.Coefficients? ==>
                  && |f| > 0 && |r.heights| == |b|
                  && forall i :: 0 <= i < |b| ==> r.heights[i] == Max(f) - b[i])
            && (r == NoCoefficient <==>
                  && |s.distanceData| >= MinRestitutionSamples && |b| >= 2 && |f| > 0
                  && forall i :: 0 <= i < |b| - 1 ==> Max(f) - b[i] <= 0.0)
  {
    if |s.distanceData| < MinRestitutionSamples {
      return NotEnoughData;
    }
    var filtered := lowpass(s.distanceData);
    var bounces := DetectBounces(findPeaks, filtered, s.timeData);
    var bounceDistances := bounces.1;
    if |bounceDistances| < 2 {
      return TooFewBounces;
    }
    assert bounceDistances[0] in filtered;
    var top := Max(filtered);
    var heights := seq(|bounceDistances|, i requires 0 <= i < |bounceDistances| => top - bounceDistances[i]);
    var coefficients := RestitutionCoefficients(sqrt, heights);
    DroppedHeightsEmpty(sqrt, top, bounceDistances, heights);
    if |coefficients| == 0 {
      return NoCoefficient;
    }
    return Coefficients(heights, coefficients, Mean(coefficients));
  }
}

=== FILE: peaks.dfy ===
/** Peak detection of `scipy.signal.find_peaks` called without any condition
    (analysis.py line 14): scipy's `_local_maxima_1d` scan. A sample is a peak when
    it rises from its left neighbour and the flat run it starts ends in a drop; for
    a flat top of several equal samples the middle one is reported (the left one of
    the two middles when the run has even length). The first and the last sample
    are never peaks. */
module Peaks {

  /** Samples `l..r` (inclusive) form a flat top: entered by a strict rise,
      left by a strict drop, and neither end of the series is part of it. */
  ghost predicate IsPlateauPeak(x: seq<real>, l: int, r: int) {
    && 1 <= l <= r < |x| - 1
    && x[l - 1] < x[l]
    && (forall j :: l <= j <= r ==> x[j] == x[l])
    && x[r + 1] < x[l]
  }

  /** The sample scipy reports for the flat top `l..r`. */
  function Middle(l: nat, r: nat): nat {
    (l + r) / 2
  }

  /** Some flat top starting at or after `i` has `k` as its middle. */
  ghost predicate PeakFrom(x: seq<real>, i: nat, k: nat) {
    exists l, r :: i <= l && IsPlateauPeak(x, l, r) && k == Middle(l, r)
  }

  /** Index of the first sample at or after `a` that differs from `v`, stopping at
      the last sample of the series. */
  function Ahead(x: seq<real>, v: real, a: nat): (r: nat)
    requires a <= |x| - 1
    ensures a <= r <= |x| - 1
    ensures forall j :: a <= j < r ==> x[j] == v
    ensures r == |x| - 1 || x[r] != v
    decreases |x| - a
  {
    if a < |x| - 1 && x[a] == v then Ahead(x, v, a + 1) else a
  }

  /** The scan loop of `_local_maxima_1d`, started at index `i`. */
  function Scan(x: seq<real>, i: nat): seq<nat>
    requires 1 <= i
    decreases |x| - i
  {
    if i >= |x| - 1 then []
    else if x[i - 1] < x[i] then
      var a := Ahead(x, x[i], i + 1);
      if x[a] < x[i] then [Middle(i, a - 1)] + Scan(x, a + 1)
      else Scan(x, i + 1)
    else Scan(x, i + 1)
  }

  /** `r` lists interior indices from `lo` on, in increasing order, each at least
      as high as both its neighbours. */
  predicate Shaped(x: seq<real>, lo: nat, r: seq<nat>) {
    && (forall k :: 0 <= k < |r| ==> lo <= r[k] < |x| - 1)
    && (forall k :: 0 <= k < |r| ==> r[k] >= 1 && x[r[k] - 1] <= x[r[k]] && x[r[k] + 1] <= x[r[k]])
    && (forall k, j :: 0 <= k < j < |r| ==> r[k] < r[j])
  }

  /** The scan from `i` reports interior indices from `i` on, in increasing order,
      each at least as high as both its neighbours. */
  lemma {:induction false} ScanShape(x: seq<real>, i: nat)
    requires 1 <= i
    ensures Shaped(x, i, Scan(x, i))
    decreases |x| - i
  {
    if i >= |x| - 1 {
      NoPeakPastEnd(x, i, 0);
    } else if x[i - 1] < x[i] && x[Ahead(x, x[i], i + 1)] < x[i] {
      var a := Ahead(x, x[i], i + 1);
      ScanShape(x, a + 1);
      ShapeAfterRun(x, i, a);
    } else {
      ScanShape(x, i + 1);
      ShapeAfterStep(x, i);
    }
  }

  /** The induction step of `ScanShape` for a step that reports a flat top
      ending at `a - 1`. */
  lemma ShapeAfterRun(x: seq<real>, i: nat, a: nat)
    requires 1 <= i < |x| - 1 && x[i - 1] < x[i]
    requires a == Ahead(x, x[i], i + 1) && x[a] < x[i]
    requires Shaped(x, a + 1, Scan(x, a + 1))
    ensures Shaped(x, i, Scan(x, i))
  {
    ScanUnfoldsRun(x, i);
    MiddleOfRun(x, i, a);
    ReportFirst(x, i, Middle(i, a - 1), a + 1, Scan(x, a + 1), Scan(x, i));
  }

  /** The induction step of `ScanShape` for a step that reports nothing. */
  lemma ShapeAfterStep(x: seq<real>, i: nat)
    requires 1 <= i < |x| - 1
    requires !(x[i - 1] < x[i] && x[Ahead(x, x[i], i + 1)] < x[i])
    requires Shaped(x, i + 1, Scan(x, i + 1))
    ensures Shaped(x, i, Scan(x, i))
  {
    ShapedFrom(x, i, i + 1, Scan(x, i + 1));
    ScanUnfoldsStep(x, i);
  }

  /** A step of the scan that reports a flat top. */
  lemma ScanUnfoldsRun(x: seq<real>, i: nat)
    requires 1 <= i < |x| - 1 && x[i - 1] < x[i]
    requires x[Ahead(x, x[i], i + 1)] < x[i]
    ensures Scan(x, i) == [Middle(i, Ahead(x, x[i], i + 1) - 1)] + Scan(x, Ahead(x, x[i], i + 1) + 1)
  {
  }

  /** A step of the scan that reports nothing. */
  lemma ScanUnfoldsStep(x: seq<real>, i: nat)
    requires 1 <= i < |x| - 1
    requires !(x[i - 1] < x[i] && x[Ahead(x, x[i], i + 1)] < x[i])
    ensures Scan(x, i) == Scan(x, i + 1)
  {
  }

  /** Lowering the first admitted index keeps the shape. */
  lemma ShapedFrom(x: seq<real>, lo: nat, lo': nat, r: seq<nat>)
    requires lo <= lo' && Shaped(x, lo', r)
    ensures Shaped(x, lo, r)
  {
  }

  /** The middle of a run entered by a rise and left by a drop lies inside the run
      and is at least as high as both its neighbours. */
  lemma MiddleOfRun(x: seq<real>, i: nat, a: nat)
    requires 1 <= i < |x| - 1 && x[i - 1] < x[i]
    requires a == Ahead(x, x[i], i + 1) && x[a] < x[i]
    ensures i <= Middle(i, a - 1) < a <= |x| - 1
    ensures x[Middle(i, a - 1) - 1] <= x[Middle(i, a - 1)]
    ensures x[Middle(i, a - 1) + 1] <= x[Middle(i, a - 1)]
  {
    var m := Middle(i, a - 1);
    assert x[m] == x[i];
    if m > i {
      assert x[m - 1] == x[i];
    }
    if m + 1 < a {
      assert x[m + 1] == x[i];
    }
  }

  /** Putting a local maximum in front of later ones keeps the scan's shape:
      indices in range, each at least as high as its neighbours, increasing. */
  lemma ReportFirst(x: seq<real>, i: nat, m: nat, lo: nat, rest: seq<nat>, r: seq<nat>)
    requires i <= m < lo && m < |x| - 1 && 1 <= m
    requires x[m - 1] <= x[m] && x[m + 1] <= x[m]
    requires Shaped(x, lo, rest)
    requires r == [m] + rest
    ensures Shaped(x, i, r)
  {
    forall k, j | 0 <= k < j < |r|
      ensures r[k] < r[j]
    {
      assert r[j] == rest[j - 1];
      if k > 0 {
        assert r[k] == rest[k - 1];
      }
    }
  }

  /** `find_peaks(x)[0]`. */
  function LocalMaxima(x: seq<real>): (r: seq<nat>)
    ensures |x| < 3 ==> r == []
    ensures forall k :: 0 <= k < |r| ==> 1 <= r[k] < |x| - 1
    ensures forall k :: 0 <= k < |r| ==> x[r[k] - 1] <= x[r[k]] && x[r[k] + 1] <= x[r[k]]
    ensures forall k, m :: 0 <= k < m < |r| ==> r[k] < r[m]
  {
    ScanShape(x, 1);
    Scan(x, 1)
  }

  /** A flat top has one end: two flat tops starting at the same sample coincide. */
  lemma PlateauEnd(x: seq<real>, l: int, r: int, r': int)
    requires IsPlateauPeak(x, l, r) && IsPlateauPeak(x, l, r')
    ensures r == r'
  {
  }

  /** No flat top starts at a sample that does not rise from its left neighbour. */
  lemma StepNoRise(x: seq<real>, i: nat, k: nat)
    requires 1 <= i < |x| - 1 && !(x[i - 1] < x[i])
    ensures PeakFrom(x, i, k) <==> PeakFrom(x, i + 1, k)
  {
    if PeakFrom(x, i, k) {
      var l, r :| i <= l && IsPlateauPeak(x, l, r) && k == Middle(l, r);
      assert l != i;
      assert i + 1 <= l;
    }
  }

  /** When the run after a rise does not end in a drop, no flat top starts there. */
  lemma StepRiseNoDrop(x: seq<real>, i: nat, k: nat)
    requires 1 <= i < |x| - 1 && x[i - 1] < x[i]
    requires !(x[Ahead(x, x[i], i + 1)] < x[i])
    ensures PeakFrom(x, i, k) <==> PeakFrom(x, i + 1, k)
  {
    var a := Ahead(x, x[i], i + 1);
    if PeakFrom(x, i, k) {
      var l, r :| i <= l && IsPlateauPeak(x, l, r) && k == Middle(l, r);
      assert i + 1 <= l;
    }
  }

  /** When the run after a rise ends in a drop, that run is the next flat top and
      no other flat top starts inside it. */
  lemma StepRiseDrop(x: seq<real>, i: nat, k: nat, a: nat)
    requires 1 <= i < |x| - 1 && x[i - 1] < x[i]
    requires a == Ahead(x, x[i], i + 1) && x[a] < x[i]
    ensures PeakFrom(x, i, k) <==> k == Middle(i, a - 1) || PeakFrom(x, a + 1, k)
  {
    assert IsPlateauPeak(x, i, a - 1);
    if PeakFrom(x, i, k) {
      var l, r :| i <= l && IsPlateauPeak(x, l, r) && k == Middle(l, r);
      if l == i {
        PlateauEnd(x, l, r, a - 1);
      } else if l <= a {
        assert false;
      } else {
        assert a + 1 <= l;
      }
    }
  }

  /** One step of the scan that reports a flat top and jumps past its drop. */
  lemma ScanReportsRun(x: seq<real>, i: nat, k: nat, a: nat)
    requires 1 <= i < |x| - 1 && x[i - 1] < x[i]
    requires a == Ahead(x, x[i], i + 1) && x[a] < x[i]
    ensures k in Scan(x, i) <==> k == Middle(i, a - 1) || k in Scan(x, a + 1)
  {
  }

  /** One step of the scan that reports nothing and moves to the next sample. */
  lemma ScanMovesOn(x: seq<real>, i: nat, k: nat)
    requires 1 <= i < |x| - 1
    requires !(x[i - 1] < x[i] && x[Ahead(x, x[i], i + 1)] < x[i])
    ensures k in Scan(x, i) <==> k in Scan(x, i + 1)
  {
  }

  /** No flat top starts at or after the last sample. */
  lemma NoPeakPastEnd(x: seq<real>, i: nat, k: nat)
    requires 1 <= i && i >= |x| - 1
    ensures Scan(x, i) == [] && !PeakFrom(x, i, k)
  {
  }

  /** The scan from `i` reports exactly the middles of the flat tops that start at
      or after `i`. */
  lemma {:induction false} ScanExact(x: seq<real>, i: nat, k: nat)
    requires 1 <= i
    ensures k in Scan(x, i) <==> PeakFrom(x, i, k)
    decreases |x| - i
  {
    if i >= |x| - 1 {
      NoPeakPastEnd(x, i, k);
    } else if x[i - 1] < x[i] && x[Ahead(x, x[i], i + 1)] < x[i] {
      var a := Ahead(x, x[i], i + 1);
      ScanExact(x, a + 1, k);
      ExactAfterRun(x, i, k, a);
    } else {
      ScanExact(x, i + 1, k);
      ExactAfterStep(x, i, k);
    }
  }

  /** The induction step of `ScanExact` for a step that reports a flat top
      ending at `a - 1`. */
  lemma ExactAfterRun(x: seq<real>, i: nat, k: nat, a: nat)
    requires 1 <= i < |x| - 1 && x[i - 1] < x[i]
    requires a == Ahead(x, x[i], i + 1) && x[a] < x[i]
    requires k in Scan(x, a + 1) <==> PeakFrom(x, a + 1, k)
    ensures k in Scan(x, i) <==> PeakFrom(x, i, k)
  {
    ScanReportsRun(x, i, k, a);
    StepRiseDrop(x, i, k, a);
  }

  /** The induction step of `ScanExact` for a step that reports nothing. */
  lemma ExactAfterStep(x: seq<real>, i: nat, k: nat)
    requires 1 <= i < |x| - 1
    requires !(x[i - 1] < x[i] && x[Ahead(x, x[i], i + 1)] < x[i])
    requires k in Scan(x, i + 1) <==> PeakFrom(x, i + 1, k)
    ensures k in Scan(x, i) <==> PeakFrom(x, i, k)
  {
    ScanMovesOn(x, i, k);
    if x[i - 1] < x[i] {
      StepRiseNoDrop(x, i, k);
    } else {
      StepNoRise(x, i, k);
    }
  }

  /** `find_peaks` reports exactly the middles of the flat tops of the series. */
  lemma LocalMaximaExact(x: seq<real>, k: nat)
    ensures k in LocalMaxima(x) <==> PeakFrom(x, 1, k)
  {
    ScanExact(x, 1, k);
  }

  /** A strict single-sample peak (a "tent") is reported. */
  lemma StrictPeakReported(x: seq<real>, k: nat)
    requires 1 <= k < |x| - 1 && x[k - 1] < x[k] && x[k + 1] < x[k]
    ensures k in LocalMaxima(x)
  {
    assert IsPlateauPeak(x, k, k) && k == Middle(k, k);
    LocalMaximaExact(x, k);
  }
}

=== FILE: realmath.dfy ===
/** Exact real-number counterparts of the numeric helpers the analysis code
    calls (`np.sqrt`, `np.mean`, `np.median`, `np.std`, `pd.Series.mode`, `max`).
    Floating-point rounding is not modelled: every value is a mathematical real.
    The square root is never defined here; callers pass it in as a parameter and
    lemmas that need its meaning assume `IsSqrt` of it. */
module RealMath {
  import opened Basics

  /** The square of a real number. */
  function Sq(x: real): real {
    x * x
  }

  /** A named square is positive unless its base is zero. */
  lemma SquarePositive(x: real, p: real)
    requires p == x * x
    ensures x != 0.0 ==> p > 0.0
  {
    if x != 0.0 {
      var q := 1.0 / x;
      assert p * q == x;
    }
  }

  /** A square is never negative, and it is zero exactly when its base is. */
  lemma SqZero(x: real)
    ensures Sq(x) >= 0.0
    ensures Sq(x) == 0.0 <==> x == 0.0
  {
    SquarePositive(x, Sq(x));
  }

  /** Squaring is strictly increasing on the non-negative reals. */
  lemma SqMonotone(a: real, b: real)
    requires 0.0 <= a < b
    ensures Sq(a) < Sq(b)
  {
    var aa, ab, bb := a * a, a * b, b * b;
    assert aa <= ab;
    assert ab < bb;
  }

  /** `sqrt` is the non-negative square root on the non-negative reals. */
  ghost predicate IsSqrt(sqrt: real -> real) {
    forall x: real :: 0.0 <= x ==> 0.0 <= sqrt(x) && Sq(sqrt(x)) == x
  }

  lemma SqrtZero(sqrt: real -> real)
    requires IsSqrt(sqrt)
    ensures sqrt(0.0) == 0.0
  {
    SqZero(sqrt(0.0));
  }

  /** The root of a non-negative value is zero exactly when the value is. */
  lemma SqrtIsZero(sqrt: real -> real, q: real)
    requires IsSqrt(sqrt)
    requires 0.0 <= q
    ensures sqrt(q) == 0.0 <==> q == 0.0
  {
    SqZero(sqrt(q));
  }

  /** Roots compare as their squares do: a root is below, at or above 1 as its
      argument is. */
  lemma SqrtVersusOne(sqrt: real -> real, q: real)
    requires IsSqrt(sqrt)
    requires 0.0 <= q
    ensures 0.0 <= sqrt(q)
    ensures q < 1.0 <==> sqrt(q) < 1.0
    ensures q == 1.0 <==> sqrt(q) == 1.0
  {
    var s := sqrt(q);
    assert Sq(1.0) == 1.0;
    if s < 1.0 {
      SqMonotone(s, 1.0);
    } else if s > 1.0 {
      SqMonotone(1.0, s);
    }
  }

  function Sum(s: seq<real>): real {
    if |s| == 0 then 0.0 else s[0] + Sum(s[1..])
  }

  lemma {:induction false} SumAppend(a: seq<real>, b: seq<real>)
    ensures Sum(a + b) == Sum(a) + Sum(b)
  {
    if |a| == 0 {
      assert a + b == b;
    } else {
      assert (a + b)[1..] == a[1..] + b;
      SumAppend(a[1..], b);
    }
  }

  /** A sum of non-negative terms is non-negative, and zero exactly when every term is. */
  lemma {:induction false} SumNonNegative(s: seq<real>)
    requires forall i :: 0 <= i < |s| ==> s[i] >= 0.0
    ensures Sum(s) >= 0.0
    ensures Sum(s) == 0.0 <==> forall i :: 0 <= i < |s| ==> s[i] == 0.0
  {
    if |s| > 0 {
      SumNonNegative(s[1..]);
      assert forall i :: 1 <= i < |s| ==> s[i] == s[1..][i - 1];
    }
  }

  /** The sum of `n` copies of `c`. */
  lemma {:induction false} SumConstant(s: seq<real>, c: real)
    requires forall i :: 0 <= i < |s| ==> s[i] == c
    ensures Sum(s) == |s| as real * c
  {
    if |s| > 0 {
      SumConstant(s[1..], c);
    }
  }

  function Mean(s: seq<real>): real
    requires |s| > 0
  {
    Sum(s) / |s| as real
  }

  /** Dividing by a non-zero number and multiplying back gives the original value. */
  lemma DivTimes(a: real, n: real)
    requires n != 0.0
    ensures (a / n) * n == a
  {
  }

  /** The ratio of a height to the one before it. */
  function Ratio(cur: real, next: real): real
    requires cur > 0.0
  {
    next / cur
  }

  /** The ratio of a non-negative height to a higher or equal one is in `[0, 1]`,
      and below 1 exactly when the height is strictly lower. */
  lemma RatioRange(cur: real, next: real)
    requires 0.0 <= next <= cur && cur > 0.0
    ensures 0.0 <= Ratio(cur, next) <= 1.0
    ensures Ratio(cur, next) < 1.0 <==> next < cur
  {
    var q := next / cur;
    DivTimes(next, cur);
    if q < 1.0 {
      MulMonotone(q, 1.0, cur);
    } else if q > 1.0 {
      MulMonotone(1.0, q, cur);
    }
  }

  /** The ratio of a height to a lower positive one exceeds 1. */
  lemma RatioAboveOne(cur: real, next: real)
    requires 0.0 < cur < next
    ensures Ratio(cur, next) > 1.0
  {
    var q := next / cur;
    DivTimes(next, cur);
    assert q != 1.0;
    if q < 1.0 {
      MulMonotone(q, 1.0, cur);
    }
  }

  /** Multiplying by a positive number keeps a strict order. */
  lemma MulMonotone(a: real, b: real, c: real)
    requires a < b && c > 0.0
    ensures a * c < b * c
  {
  }

  /** The mean times the count is the total. */
  lemma MeanTimesCount(s: seq<real>)
    requires |s| > 0
    ensures Mean(s) * |s| as real == Sum(s)
  {
    DivTimes(Sum(s), |s| as real);
  }

  /** The deviations of the values from `m`. */
  function Deviations(s: seq<real>, m: real): (r: seq<real>)
    ensures |r| == |s|
    ensures forall i :: 0 <= i < |s| ==> r[i] == s[i] - m
  {
    seq(|s|, i requires 0 <= i < |s| => s[i] - m)
  }

  lemma {:induction false} SumDeviations(s: seq<real>, m: real)
    ensures Sum(Deviations(s, m)) == Sum(s) - |s| as real * m
  {
    if |s| > 0 {
      SumDeviations(s[1..], m);
      assert Deviations(s, m)[1..] == Deviations(s[1..], m);
    }
  }

  /** The values balance around their mean: the deviations from it sum to zero. */
  lemma MeanBalances(s: seq<real>)
    requires |s| > 0
    ensures Sum(Deviations(s, Mean(s))) == 0.0
  {
    SumDeviations(s, Mean(s));
    MeanTimesCount(s);
  }

  lemma MeanConstant(s: seq<real>, c: real)
    requires |s| > 0
    requires forall i :: 0 <= i < |s| ==> s[i] == c
    ensures Mean(s) == c
  {
    SumConstant(s, c);
  }

  function SquaredDeviations(s: seq<real>, m: real): (r: seq<real>)
    ensures |r| == |s|
    ensures forall i :: 0 <= i < |s| ==> r[i] == Sq(s[i] - m)
  {
    seq(|s|, i requires 0 <= i < |s| => Sq(s[i] - m))
  }

  /** Population variance (numpy's default `ddof=0`). */
  function PopVariance(s: seq<real>): real
    requires |s| > 0
  {
    Mean(SquaredDeviations(s, Mean(s)))
  }

  /** The variance is never negative, and it is zero exactly when all values are equal. */
  lemma PopVarianceZero(s: seq<real>)
    requires |s| > 0
    ensures PopVariance(s) >= 0.0
    ensures PopVariance(s) == 0.0 <==> forall i :: 0 <= i < |s| ==> s[i] == s[0]
  {
    var m := Mean(s);
    var d := SquaredDeviations(s, m);
    forall i | 0 <= i < |d|
      ensures d[i] >= 0.0 && (d[i] == 0.0 <==> s[i] == m)
    {
      SqZero(s[i] - m);
    }
    SumNonNegative(d);
    if forall i :: 0 <= i < |s| ==> s[i] == s[0] {
      MeanConstant(s, s[0]);
    }
  }

  function Max(s: seq<real>): (r: real)
    requires |s| > 0
    ensures r in s
    ensures forall i :: 0 <= i < |s| ==> s[i] <= r
  {
    if |s| == 1 then s[0]
    else
      var m := Max(s[1..]);
      assert forall i :: 1 <= i < |s| ==> s[i] == s[1..][i - 1];
      if s[0] >= m then s[0] else m
  }

  predicate Ascending(s: seq<real>) {
    forall i, j :: 0 <= i < j < |s| ==> s[i] <= s[j]
  }

  function Insert(x: real, s: seq<real>): (r: seq<real>)
    requires Ascending(s)
    ensures Ascending(r)
    ensures multiset(r) == multiset(s) + multiset{x}
  {
    if |s| == 0 then [x]
    else if x <= s[0] then [x] + s
    else
      var t := Insert(x, s[1..]);
      assert s == [s[0]] + s[1..];
      InsertLowerBound(x, s[1..], t, s[0]);
      [s[0]] + t
  }

  /** A lower bound of `x` and of every element of `s` bounds the whole of `t`
      when `t` holds exactly those values. */
  lemma InsertLowerBound(x: real, s: seq<real>, t: seq<real>, b: real)
    requires multiset(t) == multiset(s) + multiset{x}
    requires b <= x && forall j :: 0 <= j < |s| ==> b <= s[j]
    ensures forall j :: 0 <= j < |t| ==> b <= t[j]
  {
    forall j | 0 <= j < |t|
      ensures b <= t[j]
    {
      assert t[j] in multiset(t);
      if t[j] != x {
        assert t[j] in multiset(s);
      }
    }
  }

  /** Ascending sort (insertion sort); `sorted()` / `np.sort` on the reals. */
  function Sort(s: seq<real>): (r: seq<real>)
    ensures Ascending(r)
    ensures multiset(r) == multiset(s)
    ensures |r| == |s|
  {
    if |s| == 0 then []
    else
      assert s == [s[0]] + s[1..];
      var r := Insert(s[0], Sort(s[1..]));
      assert |r| == |multiset(r)|;
      r
  }

  /** `np.median`: the middle of the sorted values, or the mean of the two middle
      values when the count is even. */
  function Median(s: seq<real>): real
    requires |s| > 0
  {
    var t := Sort(s);
    var n := |t|;
    if n % 2 == 1 then t[n / 2] else (t[n / 2 - 1] + t[n / 2]) / 2.0
  }

  /** The test "at most `m`". */
  function AtMost(m: real): real -> bool {
    x => x <= m
  }

  /** The test "at least `m`". */
  function AtLeast(m: real): real -> bool {
    x => x >= m
  }

  /** Number of values at most `m`. */
  function CountAtMost(s: seq<real>, m: real): nat {
    |Filter(s, AtMost(m))|
  }

  /** Number of values at least `m`. */
  function CountAtLeast(s: seq<real>, m: real): nat {
    |Filter(s, AtLeast(m))|
  }

  /** In an ascending sequence, the first `k` elements are all at most `t[k-1]`. */
  lemma AscendingPrefixCount(t: seq<real>, k: nat, m: real)
    requires Ascending(t) && 0 < k <= |t| && t[k - 1] <= m
    ensures CountAtMost(t, m) >= k
  {
    assert forall i :: 0 <= i < k ==> t[i] <= t[k - 1];
    FilterPrefixCount(t, k, AtMost(m));
  }

  lemma AscendingSuffixCount(t: seq<real>, k: nat, m: real)
    requires Ascending(t) && k < |t| && t[k] >= m
    ensures CountAtLeast(t, m) >= |t| - k
  {
    assert forall i :: k <= i < |t| ==> t[k] <= t[i];
    FilterSuffixCount(t, k, AtLeast(m));
  }

  /** The median is the middle sorted value for an odd count and the average of
      the two middle sorted values for an even count. */
  lemma MedianMiddle(s: seq<real>)
    requires |s| > 0
    ensures |s| % 2 == 1 ==> Median(s) == Sort(s)[|s| / 2]
    ensures |s| % 2 == 0 ==> 2.0 * Median(s) == Sort(s)[|s| / 2 - 1] + Sort(s)[|s| / 2]
  {
  }

  /** The median splits the values in half: at least half of them are at most the
      median and at least half are at least the median. */
  lemma MedianSplitsInHalf(s: seq<real>)
    requires |s| > 0
    ensures 2 * CountAtMost(s, Median(s)) >= |s|
    ensures 2 * CountAtLeast(s, Median(s)) >= |s|
  {
    var t := Sort(s);
    var n := |t|;
    var m := Median(s);
    FilterCountPermutation(s, t, AtMost(m));
    FilterCountPermutation(s, t, AtLeast(m));
    if n % 2 == 1 {
      AscendingPrefixCount(t, n / 2 + 1, m);
      AscendingSuffixCount(t, n / 2, m);
    } else {
      AscendingPrefixCount(t, n / 2, m);
      AscendingSuffixCount(t, n / 2, m);
    }
  }

  /** Number of occurrences of `x` in `s`. */
  function Occurrences(s: seq<real>, x: real): nat {
    multiset(s)[x]
  }

  /** The most frequent value among `s[..i]`, the smallest one on a tie. */
  function MostFrequentUpTo(s: seq<real>, i: nat): (r: real)
    requires 0 < i <= |s|
    ensures r in s[..i]
    ensures forall j :: 0 <= j < i ==> Occurrences(s, s[j]) <= Occurrences(s, r)
    ensures forall j :: 0 <= j < i && Occurrences(s, s[j]) == Occurrences(s, r) ==> r <= s[j]
  {
    if i == 1 then s[0]
    else
      var b := MostFrequentUpTo(s, i - 1);
      var c := s[i - 1];
      if Occurrences(s, c) > Occurrences(s, b)
         || (Occurrences(s, c) == Occurrences(s, b) && c < b)
      then c
      else b
  }

  /** `pd.Series(s).mode()[0]`: the smallest of the most frequent values; the
      lookup fails (`None`) on an empty series. */
  function SeriesMode(s: seq<real>): (r: Option<real>)
    ensures r.None? <==> |s| == 0
    ensures r.Some? ==> r.value in s
    ensures r.Some? ==> forall x :: x in s ==> Occurrences(s, x) <= Occurrences(s, r.value)
    ensures r.Some? ==> forall x :: x in s && Occurrences(s, x) == Occurrences(s, r.value) ==> r.value <= x
  {
    if |s| == 0 then None
    else
      var m := MostFrequentUpTo(s, |s|);
      assert s[..|s|] == s;
      Some(m)
  }

  /** The mean of values in `[0, 1)` is in `[0, 1)`. */
  lemma MeanBelowOne(s: seq<real>)
    requires |s| > 0
    requires forall i :: 0 <= i < |s| ==> 0.0 <= s[i] < 1.0
    ensures 0.0 <= Mean(s) < 1.0
  {
    SumBelowCount(s);
    SumNonNegative(s);
    MeanTimesCount(s);
    var m, n := Mean(s), |s| as real;
    assert m * n == Sum(s) < n;
    FactorBelowOne(m, n);
  }

  /** The mean of non-negative values is zero exactly when every value is. */
  lemma MeanZero(s: seq<real>)
    requires |s| > 0
    requires forall i :: 0 <= i < |s| ==> s[i] >= 0.0
    ensures Mean(s) == 0.0 <==> forall i :: 0 <= i < |s| ==> s[i] == 0.0
  {
    SumNonNegative(s);
    QuotientZero(Sum(s), |s| as real);
  }

  lemma QuotientZero(a: real, n: real)
    requires n > 0.0
    ensures a / n == 0.0 <==> a == 0.0
  {
    if a / n == 0.0 {
      DivTimes(a, n);
    }
  }

  /** A factor that keeps a positive number from growing is below 1. */
  lemma FactorBelowOne(m: real, n: real)
    requires n > 0.0 && m * n < n
    ensures m < 1.0
  {
  }

  lemma {:induction false} SumBelowCount(s: seq<real>)
    requires |s| > 0
    requires forall i :: 0 <= i < |s| ==> s[i] < 1.0
    ensures Sum(s) < |s| as real
  {
    if |s| > 1 {
      SumBelowCount(s[1..]);
    }
  }

  /** The mean of values in `[0, 1]` is in `[0, 1]`. */
  lemma MeanWithinUnit(s: seq<real>)
    requires |s| > 0
    requires forall i :: 0 <= i < |s| ==> 0.0 <= s[i] <= 1.0
    ensures 0.0 <= Mean(s) <= 1.0
  {
    SumAtMostCount(s);
    SumNonNegative(s);
    MeanTimesCount(s);
  }

  lemma {:induction false} SumAtMostCount(s: seq<real>)
    requires forall i :: 0 <= i < |s| ==> s[i] <= 1.0
    ensures Sum(s) <= |s| as real
  {
    if |s| > 0 {
      SumAtMostCount(s[1..]);
    }
  }
}

=== FILE: report.dfy ===
/** The statistics of the offline report (python/create_lampiran_tex.py,
    `extract_ringkasan_statistik`), from the heights the text analysis yielded, and
    the parsing of the analysis file names. Reading the file and the regular
    expression are not modelled: the input is the list of matched
    `Tinggi: <awal> cm → <akhir> cm` pairs as numbers. */
module Report {
  import opened Basics
  import opened RealMath
  import opened Strings

  /** One matched `Tinggi: awal cm → akhir cm` line. */
  datatype Transition = Transition(awal: real, akhir: real)

  /** The height each bounce is compared with first (`tinggi_awal`, in cm). */
  const InitialHeight: real := 35.0

  /** The distinct values of a sequence. */
  function Elements(s: seq<real>): set<real> {
    set x | x in s
  }

  /** The matched heights in order: each pair's `awal`, then its `akhir`. */
  function Flatten(pairs: seq<Transition>): (r: seq<real>)
    ensures |r| == 2 * |pairs|
    ensures forall i :: 0 <= i < |pairs| ==> r[2 * i] == pairs[i].awal && r[2 * i + 1] == pairs[i].akhir
  {
    if |pairs| == 0 then []
    else
      var rest := Flatten(pairs[1..]);
      var r := [pairs[0].awal, pairs[0].akhir] + rest;
      assert forall i :: 1 <= i < |pairs| ==> r[2 * i] == rest[2 * (i - 1)] && r[2 * i + 1] == rest[2 * (i - 1) + 1];
      r
  }

  /** Index of the first occurrence of `x` in `s`. */
  function FirstIndex(s: seq<real>, x: real): (k: nat)
    requires x in s
    ensures k < |s| && s[k] == x
    ensures forall j :: 0 <= j < k ==> s[j] != x
  {
    if s[0] == x then 0 else 1 + FirstIndex(s[1..], x)
  }

  /** `list(dict.fromkeys(s))`: each value once, at the place it first occurs. */
  function Dedupe(s: seq<real>): (r: seq<real>)
    ensures forall x :: x in r <==> x in s
    ensures forall i, j :: 0 <= i < j < |r| ==> r[i] != r[j]
  {
    if |s| == 0 then []
    else
      var init := s[..|s| - 1];
      var last := s[|s| - 1];
      assert s == init + [last];
      var d := Dedupe(init);
      if last in d then d else d + [last]
  }

  /** The deduplicated values appear in the order of their first occurrences. */
  lemma {:induction false} DedupeKeepsFirstOccurrenceOrder(s: seq<real>)
    ensures forall i, j :: 0 <= i < j < |Dedupe(s)| ==> FirstIndex(s, Dedupe(s)[i]) < FirstIndex(s, Dedupe(s)[j])
  {
    if |s| > 0 {
      var init := s[..|s| - 1];
      var last := s[|s| - 1];
      assert s == init + [last];
      var d := Dedupe(init);
      DedupeKeepsFirstOccurrenceOrder(init);
      forall x | x in init
        ensures FirstIndex(s, x) == FirstIndex(init, x)
      {
        assert s[FirstIndex(init, x)] == x;
      }
      if last !in d {
        assert FirstIndex(s, last) == |s| - 1;
      }
    }
  }

  /** A sequence without repeated values has as many values as positions. */
  lemma {:induction false} DistinctCount(s: seq<real>)
    requires forall i, j :: 0 <= i < j < |s| ==> s[i] != s[j]
    ensures |Elements(s)| == |s|
  {
    if |s| > 0 {
      var init := s[..|s| - 1];
      DistinctCount(init);
      assert s == init + [s[|s| - 1]];
      assert Elements(s) == Elements(init) + {s[|s| - 1]};
      assert s[|s| - 1] !in Elements(init);
    }
  }

  /** Non-increasing order. */
  predicate Descending(s: seq<real>) {
    forall i, j :: 0 <= i < j < |s| ==> s[i] >= s[j]
  }

  function Reverse(s: seq<real>): (r: seq<real>)
    ensures |r| == |s|
    ensures forall i :: 0 <= i < |s| ==> r[i] == s[|s| - 1 - i]
    ensures multiset(r) == multiset(s)
  {
    if |s| == 0 then []
    else
      assert s == [s[0]] + s[1..];
      Reverse(s[1..]) + [s[0]]
  }

  /** Reversing an ascending sequence gives a descending one. */
  lemma ReverseAscending(t: seq<real>)
    requires Ascending(t)
    ensures Descending(Reverse(t))
  {
    var r := Reverse(t);
    forall i, j | 0 <= i < j < |r|
      ensures r[i] >= r[j]
    {
      assert r[i] == t[|t| - 1 - i] && r[j] == t[|t| - 1 - j];
    }
  }

  /** `s.sort(reverse=True)`. */
  function SortDescending(s: seq<real>): (r: seq<real>)
    ensures Descending(r)
    ensures multiset(r) == multiset(s)
    ensures |r| == |s|
  {
    ReverseAscending(Sort(s));
    Reverse(Sort(s))
  }

  /** `tinggi_list` after lines 45-47: the distinct matched heights and 35, highest first. */
  function TinggiList(pairs: seq<Transition>): (r: seq<real>)
    ensures |r| > 0
  {
    SortDescending(Dedupe(Flatten(pairs)) + [InitialHeight])
  }

  /** The height list holds exactly the matched heights and 35, in descending order,
      and has one more entry than there are distinct matched heights. */
  lemma TinggiListSpec(pairs: seq<Transition>)
    ensures Descending(TinggiList(pairs))
    ensures InitialHeight in TinggiList(pairs)
    ensures forall x :: x in TinggiList(pairs) <==> x in Flatten(pairs) || x == InitialHeight
    ensures Elements(TinggiList(pairs)) == Elements(Flatten(pairs)) + {InitialHeight}
    ensures |TinggiList(pairs)| == |Elements(Flatten(pairs))| + 1
  {
    var flat := Flatten(pairs);
    var d := Dedupe(flat);
    var u := d + [InitialHeight];
    var r := TinggiList(pairs);
    assert r == SortDescending(u);
    SameMembers(r, u);
    DistinctCount(d);
    DedupeElements(flat);
    ElementsAppend(d, InitialHeight);
  }

  /** Two sequences with the same multiset have the same members. */
  lemma SameMembers(r: seq<real>, u: seq<real>)
    requires multiset(r) == multiset(u)
    ensures forall x :: x in r <==> x in u
    ensures Elements(r) == Elements(u)
  {
    forall x
      ensures x in r <==> x in u
    {
      assert x in r <==> x in multiset(r);
      assert x in u <==> x in multiset(u);
    }
  }

  lemma DedupeElements(s: seq<real>)
    ensures Elements(Dedupe(s)) == Elements(s)
  {
  }

  lemma ElementsAppend(s: seq<real>, x: real)
    ensures Elements(s + [x]) == Elements(s) + {x}
  {
  }

  /** Every height in `l` is non-negative. */
  predicate NonNegative(l: seq<real>) {
    forall i :: 0 <= i < |l| ==> l[i] >= 0.0
  }

  /** Lines 53-57: one coefficient `sqrt(next / cur)` for each strictly decreasing
      pair of neighbours, in order. The heights are non-negative: the regular
      expression only matches unsigned numbers. */
  function Koefisien(sqrt: real -> real, l: seq<real>): (r: seq<real>)
    requires NonNegative(l)
    ensures |r| <= |l|
  {
    if |l| < 2 then []
    else (if l[0] > l[1] then [sqrt(Ratio(l[0], l[1]))] else []) + Koefisien(sqrt, l[1..])
  }

  /** A strictly decreasing neighbour pair at `i` in `l`. */
  predicate DescentAt(l: seq<real>, i: int) {
    0 <= i < |l| - 1 && l[i] > l[i + 1]
  }

  /** Every coefficient comes from a strictly decreasing neighbour pair. */
  lemma {:induction false} KoefisienSound(sqrt: real -> real, l: seq<real>, c: real)
    requires NonNegative(l)
    requires c in Koefisien(sqrt, l)
    ensures exists i :: DescentAt(l, i) && c == sqrt(Ratio(l[i], l[i + 1]))
  {
    var t := l[1..];
    if l[0] > l[1] && c == sqrt(Ratio(l[0], l[1])) {
      assert DescentAt(l, 0);
    } else {
      KoefisienSound(sqrt, t, c);
      var i :| DescentAt(t, i) && c == sqrt(Ratio(t[i], t[i + 1]));
      assert t[i] == l[i + 1] && t[i + 1] == l[i + 2];
      assert DescentAt(l, i + 1);
    }
  }

  /** Every strictly decreasing neighbour pair contributes its coefficient. */
  lemma {:induction false} KoefisienComplete(sqrt: real -> real, l: seq<real>, i: int)
    requires NonNegative(l)
    requires DescentAt(l, i)
    ensures sqrt(Ratio(l[i], l[i + 1])) in Koefisien(sqrt, l)
  {
    if i > 0 {
      var t := l[1..];
      assert t[i - 1] == l[i] && t[i] == l[i + 1];
      KoefisienComplete(sqrt, t, i - 1);
    }
  }

  /** The coefficients are exactly the roots of the ratios of the strictly decreasing
      neighbour pairs. */
  lemma KoefisienMembers(sqrt: real -> real, l: seq<real>, c: real)
    requires NonNegative(l)
    ensures c in Koefisien(sqrt, l) <==>
              exists i :: DescentAt(l, i) && c == sqrt(Ratio(l[i], l[i + 1]))
  {
    if c in Koefisien(sqrt, l) {
      KoefisienSound(sqrt, l, c);
    }
    if exists i :: DescentAt(l, i) && c == sqrt(Ratio(l[i], l[i + 1])) {
      var i :| DescentAt(l, i) && c == sqrt(Ratio(l[i], l[i + 1]));
      KoefisienComplete(sqrt, l, i);
    }
  }

  /** The tail of a descending list is descending and bounded by its head. */
  lemma DescendingTail(l: seq<real>)
    requires |l| > 0 && Descending(l)
    ensures Descending(l[1..])
    ensures forall x :: x in l[1..] ==> x <= l[0]
  {
    var t := l[1..];
    forall i, j | 0 <= i < j < |t|
      ensures t[i] >= t[j]
    {
      assert t[i] == l[i + 1] && t[j] == l[j + 1];
    }
  }

  lemma ElementsCons(l: seq<real>)
    requires |l| > 0
    ensures Elements(l) == {l[0]} + Elements(l[1..])
  {
    assert l == [l[0]] + l[1..];
  }

  /** On a descending list, the number of coefficients is the number of distinct
      values less one. */
  lemma {:induction false} KoefisienCount(sqrt: real -> real, l: seq<real>)
    requires |l| > 0 && Descending(l) && NonNegative(l)
    ensures |Koefisien(sqrt, l)| == |Elements(l)| - 1
  {
    if |l| == 1 {
      assert Elements(l) == {l[0]};
    } else {
      var t := l[1..];
      DescendingTail(l);
      DescendingTail(t);
      KoefisienCount(sqrt, t);
      ElementsCons(l);
      ElementsCons(t);
      if l[0] > l[1] {
        assert l[0] !in Elements(t);
      } else {
        assert l[0] == t[0];
      }
    }
  }

  /** Every coefficient of a list of non-negative heights lies in `[0, 1)`. */
  lemma KoefisienRange(sqrt: real -> real, l: seq<real>, c: real)
    requires IsSqrt(sqrt)
    requires NonNegative(l)
    requires c in Koefisien(sqrt, l)
    ensures 0.0 <= c < 1.0
  {
    KoefisienSound(sqrt, l, c);
    var i :| DescentAt(l, i) && c == sqrt(Ratio(l[i], l[i + 1]));
    RatioRange(l[i], l[i + 1]);
    SqrtVersusOne(sqrt, Ratio(l[i], l[i + 1]));
  }

  /** Python truthiness of a number: zero is false. */
  function Truthy(x: Option<real>): (r: Option<real>)
    ensures r.Some? <==> x.Some? && x.value != 0.0
    ensures r.Some? ==> r == x
  {
    if x.Some? && x.value != 0.0 then x else None
  }

  /** Every matched height is non-negative. */
  predicate UnsignedHeights(pairs: seq<Transition>) {
    forall i :: 0 <= i < |pairs| ==> pairs[i].awal >= 0.0 && pairs[i].akhir >= 0.0
  }

  lemma {:induction false} FlattenUnsigned(pairs: seq<Transition>)
    requires UnsignedHeights(pairs)
    ensures NonNegative(Flatten(pairs))
  {
    if |pairs| > 0 {
      FlattenUnsigned(pairs[1..]);
      assert Flatten(pairs) == [pairs[0].awal, pairs[0].akhir] + Flatten(pairs[1..]);
    }
  }

  /** Unsigned matched heights give an unsigned height list. */
  lemma TinggiListNonNegative(pairs: seq<Transition>)
    requires UnsignedHeights(pairs)
    ensures NonNegative(TinggiList(pairs))
  {
    var l := TinggiList(pairs);
    var flat := Flatten(pairs);
    TinggiListSpec(pairs);
    FlattenUnsigned(pairs);
    forall i | 0 <= i < |l|
      ensures l[i] >= 0.0
    {
      assert l[i] in Elements(l);
      if l[i] != InitialHeight {
        var j :| 0 <= j < |flat| && flat[j] == l[i];
      }
    }
  }

  /** `koefisien` of `extract_ringkasan_statistik`: the coefficients of the height list. */
  function KoefisienOf(sqrt: real -> real, pairs: seq<Transition>): seq<real>
    requires UnsignedHeights(pairs)
  {
    TinggiListNonNegative(pairs);
    Koefisien(sqrt, TinggiList(pairs))
  }

  /** The summary row `extract_ringkasan_statistik` returns (before the file's
      ball type and trial are attached). */
  datatype Ringkasan = Ringkasan(
    jumlahPantulan: Option<nat>, rataRata: Option<real>, standarDeviasi: Option<real>,
    ketelitian: Option<real>)

  /** Lines 50-76: count, mean and population standard deviation of the
      coefficients, each reported as missing when it is falsy; the precision is
      missing (NaN) when either of its operands is. */
  function ExtractRingkasan(sqrt: real -> real, pairs: seq<Transition>): (r: Ringkasan)
    requires UnsignedHeights(pairs)
    ensures r.jumlahPantulan.Some? ==> r.jumlahPantulan.value > 0
    ensures r.ketelitian.Some? <==> r.rataRata.Some? && r.standarDeviasi.Some?
    ensures |KoefisienOf(sqrt, pairs)| == 0 ==> r.rataRata.None? && r.standarDeviasi.None? && r.ketelitian.None?
  {
    var jumlah := |TinggiList(pairs)| - 1;
    var k := KoefisienOf(sqrt, pairs);
    var m := Truthy(if |k| > 0 then Some(Mean(k)) else None);
    var s := Truthy(if |k| > 0 then Some(sqrt(PopVariance(k))) else None);
    Ringkasan(
      if jumlah != 0 then Some(jumlah) else None,
      m, s,
      if m.Some? && s.Some? then Some((1.0 - s.value / m.value) * 100.0) else None)
  }

  /** The bounce count is the number of distinct matched heights (missing when
      nothing matched), and the coefficients number that count, less one when 35
      itself was matched. */
  lemma ExtractRingkasanCounts(sqrt: real -> real, pairs: seq<Transition>)
    requires UnsignedHeights(pairs)
    ensures var r := ExtractRingkasan(sqrt, pairs);
            && (r.jumlahPantulan.None? <==> |pairs| == 0)
            && (r.jumlahPantulan.Some? ==> r.jumlahPantulan.value == |Elements(Flatten(pairs))|)
    ensures |KoefisienOf(sqrt, pairs)| == |Elements(Flatten(pairs))| - (if InitialHeight in Flatten(pairs) then 1 else 0)
  {
    var flat := Flatten(pairs);
    TinggiListSpec(pairs);
    TinggiListNonNegative(pairs);
    KoefisienCount(sqrt, TinggiList(pairs));
    if |pairs| > 0 {
      assert flat[0] in Elements(flat);
    }
  }

  /** Every coefficient is in `[0, 1)`, so a reported mean lies in `(0, 1)`, and a
      reported standard deviation is positive. */
  lemma ExtractRingkasanRange(sqrt: real -> real, pairs: seq<Transition>)
    requires IsSqrt(sqrt)
    requires UnsignedHeights(pairs)
    ensures var r := ExtractRingkasan(sqrt, pairs);
            && (r.rataRata.Some? ==> 0.0 < r.rataRata.value < 1.0)
            && (r.standarDeviasi.Some? ==> r.standarDeviasi.value > 0.0)
  {
    var l := TinggiList(pairs);
    TinggiListNonNegative(pairs);
    var k := KoefisienOf(sqrt, pairs);
    if |k| > 0 {
      forall i | 0 <= i < |k|
        ensures 0.0 <= k[i] < 1.0
      {
        KoefisienRange(sqrt, l, k[i]);
      }
      MeanBelowOne(k);
      PopVarianceZero(k);
      SqrtIsZero(sqrt, PopVariance(k));
    }
  }

  /** What the reported values are: the mean is the value the coefficients
      balance around, reported exactly when some coefficient is not zero; the
      standard deviation is the root of the population variance, reported exactly
      when the coefficients are not all equal (so never for one coefficient); the
      precision is `(1 - std / mean) * 100`. */
  lemma ExtractRingkasanValues(sqrt: real -> real, pairs: seq<Transition>)
    requires IsSqrt(sqrt)
    requires UnsignedHeights(pairs)
    ensures var r := ExtractRingkasan(sqrt, pairs);
            var k := KoefisienOf(sqrt, pairs);
            && (r.rataRata.Some? <==> exists i :: 0 <= i < |k| && k[i] != 0.0)
            && (r.rataRata.Some? ==> Sum(Deviations(k, r.rataRata.value)) == 0.0)
            && (r.standarDeviasi.Some? <==> exists i :: 0 <= i < |k| && k[i] != k[0])
            && (r.standarDeviasi.Some? ==> |k| > 0 && r.standarDeviasi.value >= 0.0
                                           && Sq(r.standarDeviasi.value) == PopVariance(k))
            && (|k| == 1 ==> r.standarDeviasi.None? && r.ketelitian.None?)
            && (r.ketelitian.Some? ==>
                  r.ketelitian.value == (1.0 - r.standarDeviasi.value / r.rataRata.value) * 100.0)
  {
    var l := TinggiList(pairs);
    TinggiListNonNegative(pairs);
    var k := KoefisienOf(sqrt, pairs);
    if |k| > 0 {
      forall i | 0 <= i < |k|
        ensures 0.0 <= k[i]
      {
        KoefisienRange(sqrt, l, k[i]);
      }
      MeanZero(k);
      MeanBalances(k);
      PopVarianceZero(k);
      SqrtIsZero(sqrt, PopVariance(k));
    }
  }

  /** Lines 90-95: the ball type is the third `_`-separated part of the file name,
      or the fourth when the third is `Tenis`, and the trial is the last part with
      ".txt" removed; a name with too few parts raises `IndexError`, here `None`. */
  function ParseNamaFile(name: string): (r: Option<(string, string)>)
    ensures r.None? <==> |Split(name, '_')| < 3 || (Split(name, '_')[2] == "Tenis" && |Split(name, '_')| < 4)
    ensures r.Some? ==> r.value.1 == RemoveTxt(Split(name, '_')[|Split(name, '_')| - 1])
  {
    var parts := Split(name, '_');
    if |parts| < 3 then None
    else if parts[2] == "Tenis" then
      if |parts| < 4 then None else Some((parts[3], RemoveTxt(parts[|parts| - 1])))
    else Some((parts[2], RemoveTxt(parts[|parts| - 1])))
  }

  /** A name of the form `Analisis_Bola_<jenis>_<percobaan>.txt` yields its ball type
      and trial, and `Analisis_Bola_Tenis_<jenis>_<percobaan>.txt` the word after
      "Tenis". */
  lemma ParseNamaFileRoundTrip(jenis: string, percobaan: string, tenis: bool)
    requires jenis != "Tenis" && '_' !in jenis
    requires '_' !in percobaan && '.' !in percobaan
    ensures var parts := if tenis then ["Analisis", "Bola", "Tenis", jenis, percobaan + ".txt"]
                         else ["Analisis", "Bola", jenis, percobaan + ".txt"];
            ParseNamaFile(Join(parts, '_')) == Some((jenis, percobaan))
  {
    var parts := if tenis then ["Analisis", "Bola", "Tenis", jenis, percobaan + ".txt"]
                 else ["Analisis", "Bola", jenis, percobaan + ".txt"];
    assert '_' !in percobaan + ".txt";
    assert forall i :: 0 <= i < |parts| ==> '_' !in parts[i];
    SplitJoin(parts, '_');
    RemoveTxtSuffix(percobaan);
  }
}

=== FILE: sensor_node.dfy ===
/** The MQTT sensor node (src/main.cpp): the filtered blocking read, the command
    callback and the publishing step of `loop`. `pulseIn`, the clock and the
    client's connection state are parameters; the JSON it publishes is reduced
    to the distance it carries. */
module SensorNode {
  import opened Basics
  import opened Strings
  import opened Arduino
  import Monitor

  /** `pulseIn`'s time limit in microseconds (line 48); it never reports a longer
      pulse. */
  const PulseTimeout: ULong := 30000

  /** The range of distances the node accepts (line 55). */
  const MinRange := 2
  const MaxRange := 400

  /** `readDistance` (lines 42-58) given the pulse width `pulseIn` measured, 0
      when it timed out: -1 for a timeout or a distance outside 2..400 cm,
      otherwise the distance. */
  function ReadDistance(duration: ULong): (r: int)
    ensures r == -1 || MinRange <= r <= MaxRange
    ensures r != -1 <==> duration > 0 && MinRange <= EchoDistance(duration) <= MaxRange
    ensures r != -1 ==> r == EchoDistance(duration)
  {
    if duration == 0 then -1
    else
      var distance := EchoDistance(duration);
      if distance < MinRange || distance > MaxRange then -1 else distance
  }

  /** `pulseIn` never reports a pulse longer than `PulseTimeout`, but no bound is
      needed: every pulse beyond it is out of range and reads as -1. */
  lemma PulseBeyondTimeoutRejected(duration: ULong)
    requires duration > PulseTimeout
    ensures ReadDistance(duration) == -1
  {
    assert EchoDistance(duration) * 1000 > duration as int * 17 - 1000;
  }

  /** The node's variables (lines 33-39). */
  datatype Node = Node(isReading: bool, sensorInterval: ULong, lastSensorRead: ULong)

  const Initial := Node(false, 100, 0)

  /** What a callback or a loop pass does: the new variables, the distance it
      publishes, and the level it drives the built-in LED to. */
  datatype NodeResult = NodeResult(node: Node, published: Option<int>, ledHigh: Option<bool>)

  const IntervalPrefix := "INTERVAL:"
  const MinCommandInterval := 50
  const MaxCommandInterval := 5000

  /** `callback` (lines 93-142): whole-message commands, the `INTERVAL:` prefix
      command, and the LED for anything else (by its first byte; `staleByte` is
      what `payload[0]` holds for an empty payload). `duration` is what `pulseIn`
      measures if a reading is requested. */
  function Callback(n: Node, message: string, staleByte: char, duration: ULong): (r: NodeResult)
    ensures message == "READ_DISTANCE" ==>
              r.node == n && r.ledHigh.None?
              && (r.published.Some? <==> ReadDistance(duration) > 0)
              && (r.published.Some? ==> r.published.value == ReadDistance(duration))
    ensures message == "START_READING" ==> r == NodeResult(n.(isReading := true), None, None)
    ensures message == "STOP_READING" ==> r == NodeResult(n.(isReading := false), None, None)
    ensures message != "READ_DISTANCE" && message != "START_READING" && message != "STOP_READING"
            && StartsWith(message, IntervalPrefix) ==>
              var v := ToLong(message[|IntervalPrefix|..]);
              r.published.None? && r.ledHigh.None?
              && r.node == n.(sensorInterval := if MinCommandInterval <= v <= MaxCommandInterval then v as ULong else n.sensorInterval)
    ensures message != "READ_DISTANCE" && message != "START_READING" && message != "STOP_READING"
            && !StartsWith(message, IntervalPrefix) ==>
              r == NodeResult(n, None, Some((if |message| > 0 then message[0] else staleByte) != '1'))
  {
    if message == "READ_DISTANCE" then
      var distance := ReadDistance(duration);
      NodeResult(n, if distance > 0 then Some(distance) else None, None)
    else if message == "START_READING" then
      NodeResult(n.(isReading := true), None, None)
    else if message == "STOP_READING" then
      NodeResult(n.(isReading := false), None, None)
    else if StartsWith(message, IntervalPrefix) then
      var v := ToLong(message[|IntervalPrefix|..]);
      if MinCommandInterval <= v <= MaxCommandInterval then NodeResult(n.(sensorInterval := v as ULong), None, None)
      else NodeResult(n, None, None)
    else
      var first := if |message| > 0 then message[0] else staleByte;
      NodeResult(n, None, Some(first != '1'))
  }

  /** `INTERVAL:<k>` sets the interval to `k` exactly when `k` is within
      50..5000 ms; any other number leaves it as it was. */
  lemma IntervalCommand(n: Node, k: int, staleByte: char, duration: ULong)
    requires LongMin <= k <= LongMax
    ensures var r := Callback(n, IntervalPrefix + IntToString(k), staleByte, duration);
            r.node.sensorInterval as int == (if MinCommandInterval <= k <= MaxCommandInterval then k else n.sensorInterval as int)
            && r.node.isReading == n.isReading && r.node.lastSensorRead == n.lastSensorRead
  {
    var m := IntervalPrefix + IntToString(k);
    assert m[0] == 'I';
    assert m != "READ_DISTANCE" && m != "START_READING" && m != "STOP_READING";
    assert m[..|IntervalPrefix|] == IntervalPrefix;
    assert m[|IntervalPrefix|..] == IntToString(k) + "";
    ToLongIntToString(k, "");
  }

  /** `loop`'s sampling step (lines 206-233): when reading is on and an interval
      has passed on the wrapping clock, the time is taken first, then the sensor
      is read, and a distance is published only if it is positive and the client
      is connected. */
  function LoopStep(n: Node, now: ULong, duration: ULong, connected: bool): (r: NodeResult)
    ensures var due := n.isReading && Elapsed(now, n.lastSensorRead) >= n.sensorInterval;
            && r.node == n.(lastSensorRead := if due then now else n.lastSensorRead)
            && r.ledHigh.None?
            && (r.published.Some? <==> due && ReadDistance(duration) > 0 && connected)
            && (r.published.Some? ==> r.published.value == EchoDistance(duration))
  {
    if n.isReading && Elapsed(now, n.lastSensorRead) >= n.sensorInterval then
      var distance := ReadDistance(duration);
      NodeResult(n.(lastSensorRead := now), if distance > 0 && connected then Some(distance) else None, None)
    else
      NodeResult(n, None, None)
  }

  /** Every distance the node publishes, from a request or from the loop, passes
      the desktop monitor's check `0 < d <= 400` (python/main.py). */
  lemma PublishedDistancesAccepted(n: Node, message: string, staleByte: char, now: ULong, duration: ULong, connected: bool)
    ensures var r := Callback(n, message, staleByte, duration);
            r.published.Some? ==> 0.0 < r.published.value as real <= Monitor.MaxDistance
    ensures var r := LoopStep(n, now, duration, connected);
            r.published.Some? ==> 0.0 < r.published.value as real <= Monitor.MaxDistance
  {
  }
}

=== FILE: station.dfy ===
/** The station firmware (platformio/src/main.ino.cpp): the non-blocking
    ultrasonic read, the sampling step of `loop` that stores CSV entries, and the
    MQTT command callback. Pins, clocks and the timestamp formatting are
    parameters; the network clients are left out. */
module Station {
  import opened Basics
  import opened Strings
  import opened Arduino
  import opened WebServer

  /** The static variables of `readDistanceNonBlocking` (lines 71-74). */
  datatype Sonar = Sonar(triggerTime: ULong, triggerSent: bool, pulseStart: ULong, pulseStarted: bool)

  const SonarIdle := Sonar(0, false, 0, false)

  /** Microseconds after the trigger before a read is given up (line 102). */
  const EchoTimeout: ULong := 30000

  /** One call of `readDistanceNonBlocking` (lines 70-108) with the echo pin's
      level and the microsecond clock at that moment. The result is -1 while a
      measurement is under way, the distance when the echo ends, and 0 when no
      echo came in time. */
  function ReadDistanceNonBlocking(s: Sonar, echoHigh: bool, micros: ULong): (r: (Sonar, int))
    ensures -1 <= r.1 <= LongMax
    ensures r.1 == -1 <==> r.0.triggerSent
    ensures r.1 >= 0 ==> r.0 == s.(triggerSent := false)
    ensures !s.triggerSent ==> r.0 == Sonar(micros, true, s.pulseStart, false)
    ensures s.triggerSent && r.1 == -1 ==> r.0 == s || (echoHigh && r.0 == s.(pulseStart := micros, pulseStarted := true))
  {
    if !s.triggerSent then
      (s.(triggerSent := true, triggerTime := micros, pulseStarted := false), -1)
    else if echoHigh && !s.pulseStarted then
      (s.(pulseStart := micros, pulseStarted := true), -1)
    else if !echoHigh && s.pulseStarted then
      (s.(triggerSent := false), EchoDistance(Elapsed(micros, s.pulseStart)))
    else if Elapsed(micros, s.triggerTime) > EchoTimeout then
      (s.(triggerSent := false), 0)
    else
      (s, -1)
  }

  /** A full measurement takes three calls: the trigger, the rising echo and the
      falling echo; the third returns the distance for the echo's width and
      leaves the reader ready for the next trigger. */
  lemma ReadCycle(s: Sonar, e0: bool, t0: ULong, t1: ULong, t2: ULong)
    requires !s.triggerSent
    ensures var a := ReadDistanceNonBlocking(s, e0, t0);
            var b := ReadDistanceNonBlocking(a.0, true, t1);
            var c := ReadDistanceNonBlocking(b.0, false, t2);
            && a.1 == -1 && b.1 == -1
            && c.1 == EchoDistance(Elapsed(t2, t1))
            && !c.0.triggerSent
  {
  }

  /** Without an echo, the reader keeps waiting until more than 30000 µs have
      passed since the trigger, then reports 0 and is ready for a new trigger. */
  lemma ReadTimeout(s: Sonar, micros: ULong)
    requires s.triggerSent && !s.pulseStarted
    ensures ReadDistanceNonBlocking(s, false, micros) ==
              if Elapsed(micros, s.triggerTime) > EchoTimeout then (s.(triggerSent := false), 0) else (s, -1)
  {
  }

  /** The station's state: the shared variables, the reader, and the time of the
      last stored sample (line 49). */
  datatype Station = Station(device: Device, sonar: Sonar, lastSensorRead: ULong)

  const Initial := Station(WebServer.Initial, SonarIdle, 0)

  /** One stored line (line 260): time in seconds, distance, unit, experiment. */
  function Entry(timestamp: string, distance: int, experiment: string): string {
    timestamp + "," + IntToString(distance) + ",cm," + experiment
  }

  /** An entry splits at commas into its four fields, and the distance reads back,
      when neither the timestamp nor the experiment name holds a comma. */
  lemma EntryFields(timestamp: string, distance: int, experiment: string)
    requires ',' !in timestamp && ',' !in experiment
    requires LongMin <= distance <= LongMax
    ensures Split(Entry(timestamp, distance, experiment), ',') == [timestamp, IntToString(distance), "cm", experiment]
    ensures ToLong(IntToString(distance)) == distance
  {
    var parts := [timestamp, IntToString(distance), "cm", experiment];
    NoCommaInNumber(distance);
    EntryIsJoin(timestamp, distance, experiment);
    SplitJoin(parts, ',');
    ToLongWhole(distance);
  }

  /** An entry is its four fields joined with commas. */
  lemma EntryIsJoin(timestamp: string, distance: int, experiment: string)
    ensures Entry(timestamp, distance, experiment)
         == Join([timestamp, IntToString(distance), "cm", experiment], ',')
  {
    var parts := [timestamp, IntToString(distance), "cm", experiment];
    assert parts[1..][1..][1..] == [experiment];
    assert Join(parts[1..][1..], ',') == "cm" + [','] + experiment;
    assert Join(parts[1..], ',') == IntToString(distance) + [','] + ("cm" + [','] + experiment);
  }

  lemma NoCommaInNumber(n: int)
    ensures ',' !in IntToString(n)
  {
    var d := IntToString(n);
    assert forall i :: 0 <= i < |d| ==> d[i] == '-' || IsDigit(d[i]);
  }

  lemma ToLongWhole(n: int)
    requires LongMin <= n <= LongMax
    ensures ToLong(IntToString(n)) == n
  {
    ToLongIntToString(n, "");
    assert IntToString(n) + "" == IntToString(n);
  }

  /** Whether `loop` takes a sample at millisecond `now` (line 252): reading is on
      and at least one interval has passed since the last stored sample, counted
      on the wrapping clock. */
  predicate SampleDue(st: Station, now: ULong) {
    st.device.isReading && Elapsed(now, st.lastSensorRead) >= st.device.sensorInterval
  }

  /** The sampling step of `loop` (lines 249-281). `seconds` renders the elapsed
      milliseconds as `String((float)ms / 1000.0, 3)` does. A read that is still
      under way stores nothing and leaves `lastSensorRead`, so the next pass tries
      again; a completed read or a timeout (0) is stored. */
  function LoopStep(st: Station, now: ULong, echoHigh: bool, micros: ULong, seconds: ULong -> string): (r: Station)
    ensures !SampleDue(st, now) ==> r == st
    ensures r.device == st.device.(sensorData := r.device.sensorData)
    ensures SampleDue(st, now) ==> r.sonar == ReadDistanceNonBlocking(st.sonar, echoHigh, micros).0
    ensures var stored := SampleDue(st, now) && ReadDistanceNonBlocking(st.sonar, echoHigh, micros).1 >= 0;
            && (stored ==> r.device.sensorData == st.device.sensorData
                             + [Entry(seconds(Elapsed(now, st.device.startTime)),
                                      ReadDistanceNonBlocking(st.sonar, echoHigh, micros).1,
                                      st.device.currentExperiment)]
                           && r.lastSensorRead == now)
            && (!stored ==> r.device.sensorData == st.device.sensorData && r.lastSensorRead == st.lastSensorRead)
  {
    if !SampleDue(st, now) then st
    else
      var (sonar, distance) := ReadDistanceNonBlocking(st.sonar, echoHigh, micros);
      if distance >= 0 then
        var entry := Entry(seconds(Elapsed(now, st.device.startTime)), distance, st.device.currentExperiment);
        Station(st.device.(sensorData := st.device.sensorData + [entry]), sonar, now)
      else
        st.(sonar := sonar)
  }

  /** With the reader idle, a due pass only fires the trigger and stores
      nothing: a sample is stored on a later pass, once the echo has ended or
      timed out. */
  lemma LoopStoresFinishedReads(st: Station, now: ULong, echoHigh: bool, micros: ULong, seconds: ULong -> string)
    requires !st.sonar.triggerSent
    ensures LoopStep(st, now, echoHigh, micros, seconds).device.sensorData == st.device.sensorData
    ensures SampleDue(st, now) ==> LoopStep(st, now, echoHigh, micros, seconds).sonar.triggerSent
  {
  }

  /** What the MQTT callback does besides updating the reader: the text it
      publishes and the level it drives the built-in LED to. */
  datatype CallbackResult = CallbackResult(sonar: Sonar, published: Option<string>, ledHigh: Option<bool>)

  /** The message `snprintf(msg, ..., "Distance: %ld cm", distance)` writes
      (line 160): the number in it reads back as the distance. */
  function DistanceText(distance: int): (r: string)
    requires 0 <= distance <= LongMax
    ensures |r| > 13
    ensures r[..10] == "Distance: " && r[|r| - 3..] == " cm"
    ensures ToLong(r[10..]) == distance
  {
    var r := "Distance: " + IntToString(distance) + " cm";
    assert r[10..] == IntToString(distance) + " cm";
    ToLongIntToString(distance, " cm");
    r
  }

  /** `callback` (lines 143-172). `READ_DISTANCE` performs one call of the
      non-blocking read and publishes its result unless it is -1; any other
      message sets the LED low (on) exactly when its first byte is '1'.
      `staleByte` is the byte the callback reads at `payload[0]` when the payload
      is empty. */
  function Callback(s: Sonar, message: string, staleByte: char, echoHigh: bool, micros: ULong): (r: CallbackResult)
    ensures message == "READ_DISTANCE" ==>
              && r.ledHigh.None?
              && r.sonar == ReadDistanceNonBlocking(s, echoHigh, micros).0
              && (r.published.Some? <==> ReadDistanceNonBlocking(s, echoHigh, micros).1 >= 0)
    ensures r.published.Some? ==>
              && |r.published.value| > 13
              && r.published.value[..10] == "Distance: "
              && r.published.value[|r.published.value| - 3..] == " cm"
              && ToLong(r.published.value[10..]) == ReadDistanceNonBlocking(s, echoHigh, micros).1
    ensures message != "READ_DISTANCE" ==>
              r.sonar == s && r.published.None?
              && r.ledHigh == Some((if |message| > 0 then message[0] else staleByte) != '1')
  {
    if message == "READ_DISTANCE" then
      var (sonar, distance) := ReadDistanceNonBlocking(s, echoHigh, micros);
      CallbackResult(sonar, if distance >= 0 then Some(DistanceText(distance)) else None, None)
    else
      var first := if |message| > 0 then message[0] else staleByte;
      CallbackResult(s, None, Some(first != '1'))
  }

  /** A distance request that finds the reader idle only fires the trigger and
      publishes nothing. */
  lemma IdleRequestPublishesNothing(s: Sonar, staleByte: char, echoHigh: bool, micros: ULong)
    requires !s.triggerSent
    ensures Callback(s, "READ_DISTANCE", staleByte, echoHigh, micros).published.None?
    ensures Callback(s, "READ_DISTANCE", staleByte, echoHigh, micros).sonar.triggerSent
  {
  }
}

=== FILE: strings.dfy ===
/** Text operations the programs rely on, with the semantics of the library calls
    they stand for: Python's `str.split(sep)`, `str.strip()`, `str.lower()` and
    `str.replace`, Arduino's `String::replace(char, char)` and `String::startsWith`,
    and decimal rendering of integers (`String(long)`, `%ld`). */
module Strings {

  /** Python's `s.split(sep)` with a one-character separator: the pieces between
      separators, keeping empty pieces; an empty string splits into one empty piece. */
  function Split(s: string, sep: char): (r: seq<string>)
    ensures |r| >= 1
    ensures forall i :: 0 <= i < |r| ==> sep !in r[i]
  {
    if |s| == 0 then [""]
    else
      var rest := Split(s[1..], sep);
      if s[0] == sep then [""] + rest
      else [[s[0]] + rest[0]] + rest[1..]
  }

  /** Python's `sep.join(parts)`. */
  function Join(parts: seq<string>, sep: char): string
    requires |parts| >= 1
  {
    if |parts| == 1 then parts[0] else parts[0] + [sep] + Join(parts[1..], sep)
  }

  /** A text that splits into two pieces has one separator, with the first piece
      before it and the second after it. */
  lemma SplitPair(s: string, sep: char)
    requires |Split(s, sep)| == 2
    ensures var parts := Split(s, sep);
            var i := |parts[0]|;
            && i < |s| && s[i] == sep && s[..i] == parts[0] && s[i + 1..] == parts[1]
  {
    var parts := Split(s, sep);
    JoinSplit(s, sep);
    assert parts[1..] == [parts[1]];
    assert s == parts[0] + [sep] + parts[1];
  }

  /** Joining the pieces of a split gives back the original text. */
  lemma {:induction false} JoinSplit(s: string, sep: char)
    ensures Join(Split(s, sep), sep) == s
  {
    if |s| > 0 {
      var rest := Split(s[1..], sep);
      JoinSplit(s[1..], sep);
      if s[0] == sep {
        assert Split(s, sep) == [""] + rest;
        assert ([""] + rest)[1..] == rest;
        assert s == [sep] + s[1..];
      } else {
        assert Split(s, sep) == [[s[0]] + rest[0]] + rest[1..];
        JoinPrepend(s[0], rest, sep);
        assert s == [s[0]] + s[1..];
      }
    }
  }

  /** Putting a character in front of the first piece puts it in front of the
      joined text. */
  lemma JoinPrepend(c: char, rest: seq<string>, sep: char)
    requires |rest| >= 1
    ensures Join([[c] + rest[0]] + rest[1..], sep) == [c] + Join(rest, sep)
  {
    var r := [[c] + rest[0]] + rest[1..];
    if |rest| > 1 {
      assert r[1..] == rest[1..];
    }
  }

  /** Splitting a join of separator-free pieces gives back the pieces. */
  lemma {:induction false} SplitJoin(parts: seq<string>, sep: char)
    requires |parts| >= 1
    requires forall i :: 0 <= i < |parts| ==> sep !in parts[i]
    ensures Split(Join(parts, sep), sep) == parts
  {
    if |parts| == 1 {
      SplitFree(parts[0], sep);
    } else {
      SplitJoin(parts[1..], sep);
      SplitAfterFree(parts[0], sep, Join(parts[1..], sep));
      assert [parts[0]] + parts[1..] == parts;
    }
  }

  /** A text without the separator splits into itself. */
  lemma {:induction false} SplitFree(s: string, sep: char)
    requires sep !in s
    ensures Split(s, sep) == [s]
  {
    if |s| > 0 {
      SplitFree(s[1..], sep);
      assert [s[0]] + s[1..] == s;
    }
  }

  /** A separator-free first piece followed by the separator splits off as one piece. */
  lemma {:induction false} SplitAfterFree(p: string, sep: char, t: string)
    requires sep !in p
    ensures Split(p + [sep] + t, sep) == [p] + Split(t, sep)
  {
    if |p| == 0 {
      assert p + [sep] + t == [sep] + t;
      assert ([sep] + t)[1..] == t;
    } else {
      var s := p + [sep] + t;
      assert s[1..] == p[1..] + [sep] + t;
      SplitAfterFree(p[1..], sep, t);
      assert [p[0]] + p[1..] == p;
    }
  }

  /** Arduino's `String::replace(from, to)` for single characters: every `from`
      becomes `to`. */
  function ReplaceChar(s: string, from: char, to: char): (r: string)
    ensures |r| == |s|
    ensures forall i :: 0 <= i < |s| ==> r[i] == (if s[i] == from then to else s[i])
  {
    seq(|s|, i requires 0 <= i < |s| => if s[i] == from then to else s[i])
  }

  /** Python's `s.replace(".txt", "")`: every occurrence, scanned left to right
      without overlap, is removed. */
  function RemoveTxt(s: string): (r: string)
    ensures |r| <= |s|
  {
    if |s| < 4 then s
    else if s[..4] == ".txt" then RemoveTxt(s[4..])
    else [s[0]] + RemoveTxt(s[1..])
  }

  /** Removing ".txt" from a dot-free stem followed by ".txt" leaves the stem. */
  lemma {:induction false} RemoveTxtSuffix(t: string)
    requires '.' !in t
    ensures RemoveTxt(t + ".txt") == t
  {
    if |t| == 0 {
      assert t + ".txt" == ".txt";
    } else {
      var s := t + ".txt";
      assert s[0] == t[0] && s[0] != '.';
      assert s[1..] == t[1..] + ".txt";
      RemoveTxtSuffix(t[1..]);
      assert [t[0]] + t[1..] == t;
    }
  }

  /** A text without a dot has nothing to remove. */
  lemma {:induction false} RemoveTxtNoDot(t: string)
    requires '.' !in t
    ensures RemoveTxt(t) == t
  {
    if |t| >= 4 {
      assert t[0] != '.';
      RemoveTxtNoDot(t[1..]);
      assert [t[0]] + t[1..] == t;
    }
  }

  /** The characters Python's `str.strip()` removes (`str.isspace`). */
  predicate IsPyWhitespace(c: char) {
    c == ' ' || ('\t' <= c <= '\r') || ('\U{1c}' <= c <= '\U{1f}') || c == '\U{85}'
    || c == '\U{a0}' || c == '\U{1680}' || ('\U{2000}' <= c <= '\U{200a}')
    || c == '\U{2028}' || c == '\U{2029}' || c == '\U{202f}' || c == '\U{205f}' || c == '\U{3000}'
  }

  /** Number of whitespace characters `s` starts with. */
  function LeadingSpace(s: string): (n: nat)
    ensures n <= |s|
    ensures forall i :: 0 <= i < n ==> IsPyWhitespace(s[i])
    ensures n < |s| ==> !IsPyWhitespace(s[n])
  {
    if |s| > 0 && IsPyWhitespace(s[0]) then 1 + LeadingSpace(s[1..]) else 0
  }

  /** Number of whitespace characters `s` ends with. */
  function TrailingSpace(s: string): (n: nat)
    ensures n <= |s|
    ensures forall i :: |s| - n <= i < |s| ==> IsPyWhitespace(s[i])
    ensures n < |s| ==> !IsPyWhitespace(s[|s| - n - 1])
  {
    if |s| > 0 && IsPyWhitespace(s[|s| - 1]) then 1 + TrailingSpace(s[..|s| - 1]) else 0
  }

  /** Python's `s.strip()`: `s` without the whitespace at either end. */
  function Strip(s: string): (r: string)
    ensures |r| == 0 || (!IsPyWhitespace(r[0]) && !IsPyWhitespace(r[|r| - 1]))
    ensures LeadingSpace(s) + |r| <= |s|
    ensures r == s[LeadingSpace(s)..LeadingSpace(s) + |r|]
    ensures forall i :: 0 <= i < |s| && !(LeadingSpace(s) <= i < LeadingSpace(s) + |r|) ==> IsPyWhitespace(s[i])
  {
    var l := s[LeadingSpace(s)..];
    l[..|l| - TrailingSpace(l)]
  }

  /** Stripping a text that neither starts nor ends with whitespace changes nothing. */
  lemma StripTrimmed(s: string)
    requires |s| == 0 || (!IsPyWhitespace(s[0]) && !IsPyWhitespace(s[|s| - 1]))
    ensures Strip(s) == s
  {
  }

  function AsciiLowerChar(c: char): (r: char)
    ensures 'A' <= c <= 'Z' ==> 'a' <= r <= 'z'
    ensures !('A' <= c <= 'Z') ==> r == c
  {
    if 'A' <= c <= 'Z' then (c as int + 32) as char else c
  }

  /** `s.lower()` on the ASCII letters. No other character lowers to one of the
      letters of "distance" alone, so comparing the result with an all-lowercase
      ASCII keyword decides the same as Python's full `str.lower()`. */
  function AsciiLower(s: string): (r: string)
    ensures |r| == |s|
    ensures forall i :: 0 <= i < |s| ==> r[i] == AsciiLowerChar(s[i])
  {
    seq(|s|, i requires 0 <= i < |s| => AsciiLowerChar(s[i]))
  }

  /** Lowering maps a text to a given lowercase keyword exactly when the text spells
      the keyword in any mix of upper and lower case. */
  lemma AsciiLowerMatches(s: string, w: string)
    requires forall i :: 0 <= i < |w| ==> 'a' <= w[i] <= 'z'
    ensures AsciiLower(s) == w <==>
              |s| == |w| && forall i :: 0 <= i < |s| ==> s[i] == w[i] || s[i] as int == w[i] as int - 32
  {
    if |s| == |w| && forall i :: 0 <= i < |s| ==> s[i] == w[i] || s[i] as int == w[i] as int - 32 {
      assert forall i :: 0 <= i < |s| ==> AsciiLower(s)[i] == w[i];
    }
  }

  predicate StartsWith(s: string, prefix: string) {
    |prefix| <= |s| && s[..|prefix|] == prefix
  }

  /** Python's `sub in s` on strings: `sub` occurs somewhere in `s`. */
  predicate Contains(s: string, sub: string) {
    StartsWith(s, sub) || (|s| > 0 && Contains(s[1..], sub))
  }

  /** A text contains exactly the pieces that start at one of its positions. */
  lemma {:induction false} ContainsAt(s: string, sub: string, i: nat)
    requires i + |sub| <= |s| && s[i..i + |sub|] == sub
    ensures Contains(s, sub)
  {
    if i > 0 {
      assert s[1..][i - 1..i - 1 + |sub|] == sub;
      ContainsAt(s[1..], sub, i - 1);
    }
  }

  function DigitChar(d: nat): (c: char)
    requires d < 10
    ensures '0' <= c <= '9'
  {
    ('0' as int + d) as char
  }

  predicate IsDigit(c: char) {
    '0' <= c <= '9'
  }

  /** Decimal rendering of a natural number, without leading zeros. */
  function NatToString(n: nat): (r: string)
    ensures |r| >= 1
    ensures forall i :: 0 <= i < |r| ==> IsDigit(r[i])
    ensures |r| > 1 ==> r[0] != '0'
  {
    if n < 10 then [DigitChar(n)] else NatToString(n / 10) + [DigitChar(n % 10)]
  }

  /** Decimal rendering of an integer: `String(long)`, `%ld`, `String(size_t)`. */
  function IntToString(n: int): (r: string)
    ensures |r| >= 1
    ensures n >= 0 ==> r == NatToString(n)
    ensures n < 0 ==> r == "-" + NatToString(-n)
  {
    if n < 0 then "-" + NatToString(-n) else NatToString(n)
  }

  /** The value of a string of decimal digits, read most significant first. */
  function DigitsValue(s: string): (v: nat)
    requires forall i :: 0 <= i < |s| ==> IsDigit(s[i])
  {
    if |s| == 0 then 0
    else
      assert IsDigit(s[|s| - 1]);
      10 * DigitsValue(s[..|s| - 1]) + (s[|s| - 1] as int - '0' as int)
  }

  /** Reading back the decimal rendering of `n` gives `n`. */
  lemma {:induction false} DigitsValueOfNat(n: nat)
    ensures DigitsValue(NatToString(n)) == n
  {
    if n >= 10 {
      var s := NatToString(n);
      assert s[..|s| - 1] == NatToString(n / 10);
      DigitsValueOfNat(n / 10);
    }
  }
}

=== FILE: subscriber.dfy ===
/** The command-line subscriber (python/mqtt_subscriber.py, class
    `HC_SR04_Subscriber`): it collects JSON sensor records while collecting is on
    and computes restitution coefficients from the recorded distances. The clock
    (`datetime.now()`) and `find_peaks` are parameters. */
module Subscriber {
  import opened Basics
  import opened RealMath
  import opened Strings
  import opened Json

  /** One stored record (lines 29-34). */
  datatype Record = Record(timestamp: JsonValue, distance: JsonValue, experiment: JsonValue, receivedAt: real)

  /** The subscriber's fields `data` and `is_collecting`. */
  datatype SubscriberState = SubscriberState(data: seq<Record>, isCollecting: bool)

  /** The state after `__init__` (lines 13-14). */
  const Initial := SubscriberState([], false)

  /** How a call of `on_message` ends: normally, with the new state, or with an
      exception that escapes the handler (nothing has been stored then). */
  datatype Outcome = Handled(state: SubscriberState) | Raised

  /** Python's `key in v` on a decoded JSON value: a key of an object, a substring
      of a string, an element of an array; `None` where the test raises
      `TypeError` (a number, a boolean, `null`). */
  function HasKey(v: JsonValue, key: string): (r: Option<bool>)
    ensures r.None? <==> v.JNum? || v.JBool? || v.JNull?
    ensures v.JObject? ==> r == Some(key in v.fields)
  {
    match v
    case JObject(m) => Some(key in m)
    case JStr(s) => Some(Contains(s, key))
    case JArray(items) => Some(JStr(key) in items)
    case _ => None
  }

  /** `on_message` (lines 24-37). While collecting, a JSON object with both
      `distance` and `timestamp` is recorded, `experiment` defaulting to
      "Unknown". Text that is not JSON is reported and dropped. A payload that is
      not UTF-8 raises (only `JSONDecodeError` is caught), as does a JSON value the
      key test or the indexing cannot handle. */
  function OnMessage(s: SubscriberState, payload: Payload, now: real): (r: Outcome)
    ensures !s.isCollecting ==> r == Handled(s)
    ensures r.Handled? ==> r.state.isCollecting == s.isCollecting
    ensures r.Handled? ==> r.state.data == s.data || (|r.state.data| == |s.data| + 1 && r.state.data[..|s.data|] == s.data)
    // a record is stored exactly for a JSON object with both keys
    ensures (r.Handled? && r.state.data != s.data) <==>
              s.isCollecting && payload.Json? && payload.value.JObject?
              && "distance" in payload.value.fields && "timestamp" in payload.value.fields
    ensures r.Handled? && r.state.data != s.data ==>
              var m := payload.value.fields;
              r.state.data[|s.data|] == Record(m["timestamp"], m["distance"],
                                               if "experiment" in m then m["experiment"] else JStr("Unknown"), now)
    // the handler raises for bytes that are not UTF-8, for a scalar, and for a
    // string or array that passes both key tests but cannot be indexed by a key
    ensures r.Raised? <==>
              s.isCollecting &&
              (|| payload.Undecodable?
               || (payload.Json? && (payload.value.JNum? || payload.value.JBool? || payload.value.JNull?))
               || (payload.Json? && payload.value.JStr?
                   && Contains(payload.value.s, "distance") && Contains(payload.value.s, "timestamp"))
               || (payload.Json? && payload.value.JArray?
                   && JStr("distance") in payload.value.items && JStr("timestamp") in payload.value.items))
  {
    if !s.isCollecting then Handled(s)
    else
      match payload
      case Undecodable => Raised
      case Text(_) => Handled(s)
      case Json(v) =>
        match HasKey(v, "distance")
        case None => Raised
        case Some(hasDistance) =>
          if !hasDistance then Handled(s)
          else if HasKey(v, "timestamp") != Some(true) then Handled(s)
          else if !v.JObject? then Raised
          else
            var m := v.fields;
            Handled(s.(data := s.data + [Record(m["timestamp"], m["distance"], Get(m, "experiment", JStr("Unknown")), now)]))
  }

  /** `start_collecting` (lines 39-42): collecting, with no data. */
  function StartCollecting(s: SubscriberState): (r: SubscriberState)
    ensures r.isCollecting && r.data == []
  {
    SubscriberState([], true)
  }

  /** `stop_collecting` (lines 44-46): not collecting; the data is kept. */
  function StopCollecting(s: SubscriberState): (r: SubscriberState)
    ensures !r.isCollecting && r.data == s.data
  {
    s.(isCollecting := false)
  }

  /** After a stop, messages are ignored. */
  lemma StoppedIgnoresMessages(s: SubscriberState, payload: Payload, now: real)
    ensures OnMessage(StopCollecting(s), payload, now) == Handled(StopCollecting(s))
  {
  }

  /** After a start, the data holds only what arrives from then on: one message
      after a start leaves at most that message's record. */
  lemma StartForgetsOldData(s: SubscriberState, payload: Payload, now: real)
    ensures var r := OnMessage(StartCollecting(s), payload, now);
            r.Handled? ==> |r.state.data| <= 1
  {
  }

  /** `find_peaks` reports indices into the series it is given. */
  ghost predicate PeaksInRange(findPeaks: seq<real> -> seq<nat>) {
    forall x: seq<real>, k :: 0 <= k < |findPeaks(x)| ==> findPeaks(x)[k] < |x|
  }

  /** `max(distances) - distances` (line 98): how far each sample is above the
      lowest point of the ball. */
  function Inverted(distances: seq<real>): (r: seq<real>)
    requires |distances| > 0
    ensures |r| == |distances|
    ensures forall i :: 0 <= i < |r| ==> r[i] >= 0.0
    ensures forall i :: 0 <= i < |r| ==> r[i] == Max(distances) - distances[i]
  {
    var top := Max(distances);
    seq(|distances|, i requires 0 <= i < |distances| => top - distances[i])
  }

  /** Line 117: `sqrt(h2 / h1)` when the first height is positive, else 0. */
  function PairCoefficient(sqrt: real -> real, h1: real, h2: real): real {
    if h1 > 0.0 then sqrt(Ratio(h1, h2)) else 0.0
  }

  /** Lines 113-118: one coefficient per consecutive pair of peak heights. */
  function ConsecutiveCoefficients(sqrt: real -> real, h: seq<real>): (r: seq<real>)
    requires |h| >= 1
    ensures |r| == |h| - 1
    ensures forall i :: 0 <= i < |r| ==> r[i] == PairCoefficient(sqrt, h[i], h[i + 1])
  {
    seq(|h| - 1, i requires 0 <= i < |h| - 1 => PairCoefficient(sqrt, h[i], h[i + 1]))
  }

  /** The result of the analysis (lines 124-130), without the peak times. */
  datatype Analysis = Analysis(peaks: seq<nat>, peakHeights: seq<real>, coefficients: seq<real>, average: real)

  /** The peaks of the inverted series, or `None` when there is no data or fewer
      than two peaks (lines 86-88, 101-103). */
  function FindBounces(findPeaks: seq<real> -> seq<nat>, distances: seq<real>): (r: Option<seq<nat>>)
    requires PeaksInRange(findPeaks)
    ensures r.None? <==> |distances| == 0 || |findPeaks(Inverted(distances))| < 2
    ensures r.Some? ==> r.value == findPeaks(Inverted(distances))
    ensures r.Some? ==> forall k :: 0 <= k < |r.value| ==> r.value[k] < |distances|
  {
    if |distances| == 0 then None
    else
      var peaks := findPeaks(Inverted(distances));
      if |peaks| < 2 then None else Some(peaks)
  }

  /** The coefficients and their mean for the given peak heights. */
  function Summarize(sqrt: real -> real, peaks: seq<nat>, heights: seq<real>): (r: Analysis)
    requires |heights| >= 2
    ensures r.peaks == peaks && r.peakHeights == heights
    ensures r.coefficients == ConsecutiveCoefficients(sqrt, heights)
    ensures r.average == Mean(r.coefficients)
  {
    var c := ConsecutiveCoefficients(sqrt, heights);
    Analysis(peaks, heights, c, Mean(c))
  }

  /** `series[peaks]`: the samples at the given indices. */
  function HeightsAt(series: seq<real>, peaks: seq<nat>): (r: seq<real>)
    requires forall k :: 0 <= k < |peaks| ==> peaks[k] < |series|
    ensures |r| == |peaks|
    ensures forall k :: 0 <= k < |peaks| ==> r[k] == series[peaks[k]]
  {
    seq(|peaks|, k requires 0 <= k < |peaks| => series[peaks[k]])
  }

  /** `analyze_bouncing_ball` as written: the peak heights are read from the raw
      distances (line 105), which are distances from the sensor, not heights. */
  function AnalyzeAsWritten(sqrt: real -> real, findPeaks: seq<real> -> seq<nat>, distances: seq<real>): (r: Option<Analysis>)
    requires PeaksInRange(findPeaks)
    ensures r.None? <==> FindBounces(findPeaks, distances).None?
    ensures r.Some? ==> r.value.peaks == FindBounces(findPeaks, distances).value
    ensures r.Some? ==> r.value.peakHeights == HeightsAt(distances, r.value.peaks)
    ensures r.Some? ==> |r.value.coefficients| == |r.value.peaks| - 1 >= 1
  {
    match FindBounces(findPeaks, distances)
    case None => None
    case Some(peaks) => Some(Summarize(sqrt, peaks, HeightsAt(distances, peaks)))
  }

  /** `analyze_bouncing_ball` with the peak heights read from the inverted series,
      the heights whose peaks were found; they are never negative. */
  function AnalyzeBouncingBall(sqrt: real -> real, findPeaks: seq<real> -> seq<nat>, distances: seq<real>): (r: Option<Analysis>)
    requires PeaksInRange(findPeaks)
    ensures r.None? <==> FindBounces(findPeaks, distances).None?
    ensures r.Some? ==> r.value.peaks == FindBounces(findPeaks, distances).value
    ensures r.Some? ==> r.value.peakHeights == HeightsAt(Inverted(distances), r.value.peaks)
    ensures r.Some? ==> |r.value.coefficients| == |r.value.peaks| - 1 >= 1
    ensures r.Some? ==> forall k :: 0 <= k < |r.value.peakHeights| ==> r.value.peakHeights[k] >= 0.0
  {
    match FindBounces(findPeaks, distances)
    case None => None
    case Some(peaks) => Some(Summarize(sqrt, peaks, HeightsAt(Inverted(distances), peaks)))
  }

  /** `df['distance'].values` (lines 90-91) when every recorded distance is a
      JSON number, in recording order; `None` when some distance is not. */
  function Distances(data: seq<Record>): (r: Option<seq<real>>)
    ensures r.Some? <==> forall i :: 0 <= i < |data| ==> data[i].distance.JNum?
    ensures r.Some? ==> |r.value| == |data|
    ensures r.Some? ==> forall i :: 0 <= i < |data| ==> r.value[i] == data[i].distance.n
  {
    if |data| == 0 then Some([])
    else
      match (data[0].distance, Distances(data[1..]))
      case (JNum(n), Some(rest)) => Some([n] + rest)
      case _ => None
  }

  /** The corrected `analyze_bouncing_ball` on the recorded data: the series is
      the distances of `s.data`, and each peak height is how far the ball was
      above its lowest recorded point at that record. Line 110 formats the
      timestamp of every peak as a number, so a result also needs numeric
      timestamps there. */
  function AnalyzeRecorded(sqrt: real -> real, findPeaks: seq<real> -> seq<nat>, s: SubscriberState): (r: Option<Analysis>)
    requires PeaksInRange(findPeaks)
    ensures r.Some? ==> Distances(s.data).Some? && |s.data| > 0
    ensures Distances(s.data).Some? ==>
              (r.None? <==>
                 || |s.data| == 0
                 || |findPeaks(Inverted(Distances(s.data).value))| < 2
                 || exists k :: 0 <= k < |findPeaks(Inverted(Distances(s.data).value))|
                                && !s.data[findPeaks(Inverted(Distances(s.data).value))[k]].timestamp.JNum?)
    ensures r.Some? ==>
              && r.value.peaks == findPeaks(Inverted(Distances(s.data).value))
              && |r.value.peakHeights| == |r.value.peaks|
              && forall k :: 0 <= k < |r.value.peaks| ==>
                   && r.value.peaks[k] < |s.data|
                   && s.data[r.value.peaks[k]].timestamp.JNum?
                   && r.value.peakHeights[k] == Max(Distances(s.data).value) - s.data[r.value.peaks[k]].distance.n
  {
    match Distances(s.data)
    case Some(d) =>
      var a := AnalyzeBouncingBall(sqrt, findPeaks, d);
      if a.Some? && forall k :: 0 <= k < |a.value.peaks| ==> s.data[a.value.peaks[k]].timestamp.JNum? then a else None
    case None => None
  }

  /** When the bounces lose height, every coefficient of the corrected analysis is
      in `[0, 1]`, and so is their mean. */
  lemma AnalyzeBouncingBallRange(sqrt: real -> real, findPeaks: seq<real> -> seq<nat>, distances: seq<real>)
    requires IsSqrt(sqrt)
    requires PeaksInRange(findPeaks)
    requires AnalyzeBouncingBall(sqrt, findPeaks, distances).Some?
    requires var h := AnalyzeBouncingBall(sqrt, findPeaks, distances).value.peakHeights;
             forall k :: 1 <= k < |h| ==> h[k] <= h[k - 1]
    ensures var a := AnalyzeBouncingBall(sqrt, findPeaks, distances).value;
            && (forall i :: 0 <= i < |a.coefficients| ==> 0.0 <= a.coefficients[i] <= 1.0)
            && 0.0 <= a.average <= 1.0
  {
    var a := AnalyzeBouncingBall(sqrt, findPeaks, distances).value;
    var h := a.peakHeights;
    var c := a.coefficients;
    forall i | 0 <= i < |c|
      ensures 0.0 <= c[i] <= 1.0
    {
      if h[i] > 0.0 {
        RatioRange(h[i], h[i + 1]);
        SqrtVersusOne(sqrt, Ratio(h[i], h[i + 1]));
      }
    }
    MeanWithinUnit(c);
  }

  /** As written, a ball whose second apex is lower than its first (it is farther
      from the sensor there) gets a coefficient above 1. */
  lemma AsWrittenRisesAboveOne(sqrt: real -> real, findPeaks: seq<real> -> seq<nat>, distances: seq<real>)
    requires IsSqrt(sqrt)
    requires PeaksInRange(findPeaks)
    requires AnalyzeAsWritten(sqrt, findPeaks, distances).Some?
    requires var p := AnalyzeAsWritten(sqrt, findPeaks, distances).value.peaks;
             0.0 < distances[p[0]] < distances[p[1]]
    ensures AnalyzeAsWritten(sqrt, findPeaks, distances).value.coefficients[0] > 1.0
  {
    var a := AnalyzeAsWritten(sqrt, findPeaks, distances).value;
    var h := a.peakHeights;
    RatioAboveOne(h[0], h[1]);
    SqrtVersusOne(sqrt, Ratio(h[0], h[1]));
  }

  /** A concrete series: the ball is released 20 cm below the sensor, falls to the
      floor at 100 cm and bounces back to 40 cm below the sensor, with the two apexes
      100 samples apart so that `find_peaks(..., distance=50)` keeps both. The
      as-written analysis reports a coefficient above 1 while the corrected one
      reports one below 1. */
  function DecayingBounce(): (x: seq<real>)
    ensures |x| == 103
  {
    seq(103, i requires 0 <= i < 103 => if i == 1 then 20.0 else if i == 101 then 40.0 else 100.0)
  }

  /** Corrected, the same ball gets a coefficient below 1. */
  lemma CorrectedStaysBelowOne(sqrt: real -> real, findPeaks: seq<real> -> seq<nat>, distances: seq<real>)
    requires IsSqrt(sqrt)
    requires PeaksInRange(findPeaks)
    requires AnalyzeBouncingBall(sqrt, findPeaks, distances).Some?
    requires var p := AnalyzeBouncingBall(sqrt, findPeaks, distances).value.peaks;
             distances[p[0]] < distances[p[1]]
    ensures AnalyzeBouncingBall(sqrt, findPeaks, distances).value.coefficients[0] < 1.0
  {
    var a := AnalyzeBouncingBall(sqrt, findPeaks, distances).value;
    var h := a.peakHeights;
    RatioRange(h[0], h[1]);
    SqrtVersusOne(sqrt, Ratio(h[0], h[1]));
  }

  /** The two apexes of `DecayingBounce`, 100 samples apart and both above the
      floor: the peaks `find_peaks(inverted, height=..., distance=50)` keeps. */
  const DecayingPeaks: seq<nat> := [1, 101]

  /** On the concrete bounce, at its two apexes, the as-written analysis reports
      `sqrt(40 / 20) > 1` and the corrected one `sqrt(60 / 80) < 1`. */
  lemma DecayingBounceCounterexample(sqrt: real -> real)
    requires IsSqrt(sqrt)
    ensures Summarize(sqrt, DecayingPeaks, HeightsAt(DecayingBounce(), DecayingPeaks)).coefficients[0] > 1.0
    ensures Summarize(sqrt, DecayingPeaks, HeightsAt(Inverted(DecayingBounce()), DecayingPeaks)).coefficients[0] < 1.0
  {
    var x := DecayingBounce();
    assert x[1] == 20.0 && x[101] == 40.0;
    var raw := HeightsAt(x, DecayingPeaks);
    RatioAboveOne(raw[0], raw[1]);
    SqrtVersusOne(sqrt, Ratio(raw[0], raw[1]));
    var h := HeightsAt(Inverted(x), DecayingPeaks);
    assert h[0] == Max(x) - 20.0 && h[1] == Max(x) - 40.0 >= 0.0;
    RatioRange(h[0], h[1]);
    SqrtVersusOne(sqrt, Ratio(h[0], h[1]));
  }
}

=== FILE: webserver.dfy ===
/** The station's HTTP handlers (platformio/src/webserver.h) as transitions of
    the variables they share with the main program. The HTML page is left out;
    `millis()` is a parameter. */
module WebServer {
  import opened Basics
  import opened Strings
  import opened Arduino
  import opened JsonText

  /** The variables webserver.h shares with the main program
      (platformio/src/main.ino.cpp, lines 56-60). */
  datatype Device = Device(
    sensorData: seq<string>,
    isReading: bool,
    startTime: ULong,
    currentExperiment: string,
    sensorInterval: ULong)

  /** The values at power-on. */
  const Initial := Device([], false, 0, "Percobaan 1", 50)

  /** What `server.send` answers; `attachment` is the file name of a
      `Content-Disposition: attachment` header. */
  datatype Response = Response(code: nat, contentType: string, body: string, attachment: Option<string>)

  datatype Reply = Reply(device: Device, response: Response)

  function Plain(code: nat, body: string): Response {
    Response(code, "text/plain", body, None)
  }

  /** The text before the experiment name in the status document. */
  function StatusPrefix(isReading: bool, count: nat): string {
    "{\"isReading\":" + (if isReading then "true" else "false")
    + ",\"dataCount\":" + NatToString(count)
    + ",\"currentExperiment\":\""
  }

  /** The status document as written: the experiment name is pasted between the
      quotes as it is. */
  function StatusJson(d: Device): (r: string)
    ensures var p := StatusPrefix(d.isReading, |d.sensorData|);
            && |r| == |p| + |d.currentExperiment| + 2
            && r[..|p|] == p
            && r[|p|..|r| - 2] == d.currentExperiment
            && r[|r| - 2..] == "\"}"
  {
    StatusPrefix(d.isReading, |d.sensorData|) + d.currentExperiment + "\"}"
  }

  /** `handleStatus` (lines 274-281): nothing changes. */
  function HandleStatus(d: Device): (r: Reply)
    ensures r.device == d
    ensures r.response == Response(200, "application/json", StatusJson(d), None)
  {
    Reply(d, Response(200, "application/json", StatusJson(d), None))
  }

  /** As written, a reader of the status document takes an experiment named
      `a"b` to be called `a`, and finds `b"}` where the closing brace should be. */
  lemma StatusMisreadsQuote(d: Device)
    requires d.currentExperiment == "a\"b"
    ensures StatusJson(d) == StatusPrefix(d.isReading, |d.sensorData|) + "a\"b\"}"
    ensures ReadString("a\"b\"}") == Some(("a", "b\"}"))
  {
    var s := "a\"b\"}";
    assert s[1..] == "\"b\"}";
    assert s[1..][1..] == "b\"}";
    assert ReadString(s[1..]) == Some(("", "b\"}"));
    assert ['a'] + "" == "a";
  }

  /** The status document with the experiment name escaped. */
  function StatusJsonEscaped(d: Device): (r: string)
    ensures var p := StatusPrefix(d.isReading, |d.sensorData|);
            && |r| == |p| + |Escape(d.currentExperiment)| + 2
            && r[..|p|] == p
            && r[|p|..|r| - 2] == Escape(d.currentExperiment)
            && r[|r| - 2..] == "\"}"
  {
    StatusPrefix(d.isReading, |d.sensorData|) + Escape(d.currentExperiment) + "\"}"
  }

  /** With escaping, a reader gets exactly the experiment name back, and the
      document closes right after it, whatever the name. */
  lemma StatusEscapedReadsName(d: Device)
    ensures var body := StatusJsonEscaped(d);
            var prefix := StatusPrefix(d.isReading, |d.sensorData|);
            && body[..|prefix|] == prefix
            && ReadString(body[|prefix|..]) == Some((d.currentExperiment, "}"))
  {
    var prefix := StatusPrefix(d.isReading, |d.sensorData|);
    var body := StatusJsonEscaped(d);
    assert body[|prefix|..] == Escape(d.currentExperiment) + "\"" + "}";
    ReadEscape(d.currentExperiment, "}");
  }

  /** `handleSetExperiment` (lines 283-290): a present `name` argument becomes
      the experiment name; without one the answer is 400 and nothing changes. */
  function HandleSetExperiment(d: Device, name: Option<string>): (r: Reply)
    ensures name.None? ==> r.device == d && r.response.code == 400
    ensures name.Some? ==> r.device == d.(currentExperiment := name.value) && r.response.code == 200
  {
    match name
    case Some(n) => Reply(d.(currentExperiment := n), Plain(200, "Experiment name updated"))
    case None => Reply(d, Plain(400, "Missing name parameter"))
  }

  const MinInterval: ULong := 10
  const MaxInterval: ULong := 1000

  /** The interval `handleSetInterval` stores for an argument: `toInt()`, the
      conversion to `unsigned long`, then the two clamps in order. */
  function ClampedInterval(arg: string): (r: ULong)
    ensures MinInterval <= r <= MaxInterval
    ensures MinInterval as int <= ToLong(arg) <= MaxInterval as int ==> r as int == ToLong(arg)
    ensures 0 <= ToLong(arg) < MinInterval as int ==> r == MinInterval
    ensures ToLong(arg) > MaxInterval as int ==> r == MaxInterval
  {
    var v := ToULong(ToLong(arg));
    if v < MinInterval then MinInterval else if v > MaxInterval then MaxInterval else v
  }

  /** A negative number wraps to a huge unsigned value and so ends at the upper
      clamp, not the lower one. */
  lemma NegativeIntervalClampsHigh(arg: string)
    requires ToLong(arg) < 0
    ensures ClampedInterval(arg) == MaxInterval
  {
    NegativeWraps(ToLong(arg));
  }

  /** `handleSetInterval` (lines 292-301): only the interval changes; a missing
      argument answers 400 and changes nothing. */
  function HandleSetInterval(d: Device, arg: Option<string>): (r: Reply)
    ensures arg.None? ==> r.device == d && r.response.code == 400
    ensures arg.Some? ==> r.response.code == 200
    ensures arg.Some? ==> r.device == d.(sensorInterval := r.device.sensorInterval)
    ensures arg.Some? ==> MinInterval <= r.device.sensorInterval <= MaxInterval
    ensures arg.Some? ==> r.device.sensorInterval == ClampedInterval(arg.value)
  {
    match arg
    case Some(a) => Reply(d.(sensorInterval := ClampedInterval(a)), Plain(200, "Interval updated"))
    case None => Reply(d, Plain(400, "Missing interval parameter"))
  }

  /** `handleStart` (lines 303-308): reading, clock restarted, no data. */
  function HandleStart(d: Device, now: ULong): (r: Reply)
    ensures r.device.isReading && r.device.sensorData == [] && r.device.startTime == now
    ensures r.device.currentExperiment == d.currentExperiment
    ensures r.device.sensorInterval == d.sensorInterval
    ensures r.response.code == 200
  {
    Reply(d.(isReading := true, startTime := now, sensorData := []), Plain(200, "Data reading started"))
  }

  /** `handleStop` (lines 310-313): not reading; everything else stays. */
  function HandleStop(d: Device): (r: Reply)
    ensures r.device == d.(isReading := false)
    ensures r.response.code == 200
  {
    Reply(d.(isReading := false), Plain(200, "Data reading stopped"))
  }

  /** `handleClear` (lines 331-334): no data; everything else stays. */
  function HandleClear(d: Device): (r: Reply)
    ensures r.device == d.(sensorData := [])
    ensures r.response.code == 200
  {
    Reply(d.(sensorData := []), Plain(200, "Data cleared"))
  }

  /** Stopping keeps the data for download, and a later start discards it. */
  lemma StopKeepsStartDiscards(d: Device, now: ULong)
    ensures HandleStop(d).device.sensorData == d.sensorData
    ensures HandleStart(HandleStop(d).device, now).device.sensorData == []
    ensures HandleClear(d).device.isReading == d.isReading
  {
  }

  /** The characters the download file name may not contain. */
  predicate IsPathChar(c: char) {
    c == ' ' || c == '/' || c == '\\'
  }

  /** The experiment name with every space, slash and backslash replaced by `_`
      (lines 316-319). */
  function SafeStem(name: string): (r: string)
    ensures |r| == |name|
    ensures forall i :: 0 <= i < |r| ==> r[i] == (if IsPathChar(name[i]) then '_' else name[i])
  {
    ReplaceChar(ReplaceChar(ReplaceChar(name, ' ', '_'), '/', '_'), '\\', '_')
  }

  /** The stem has none of the replaced characters, and replacing again changes
      nothing. */
  lemma SafeStemClean(name: string)
    ensures forall i :: 0 <= i < |SafeStem(name)| ==> !IsPathChar(SafeStem(name)[i])
    ensures SafeStem(SafeStem(name)) == SafeStem(name)
  {
  }

  /** The first line of the download. */
  const CsvHeader := "Timestamp(s),Distance(cm),Unit,Experiment"

  /** Each entry followed by a line feed. */
  function Lines(entries: seq<string>): (r: string)
    ensures r == "" <==> |entries| == 0
    ensures |entries| > 0 ==> |r| > |entries[0]| && r[..|entries[0]| + 1] == entries[0] + "\n"
    ensures |entries| > 0 ==> r[|r| - 1] == '\n'
  {
    if |entries| == 0 then "" else entries[0] + "\n" + Lines(entries[1..])
  }

  /** The downloaded file (lines 322-325). */
  function Csv(entries: seq<string>): string {
    CsvHeader + "\n" + Lines(entries)
  }

  /** Cutting the download at line feeds gives the header, every stored entry in
      order, and the empty rest after the last line feed. */
  lemma CsvLines(entries: seq<string>)
    requires forall i :: 0 <= i < |entries| ==> '\n' !in entries[i]
    ensures Split(Csv(entries), '\n') == [CsvHeader] + entries + [""]
  {
    SplitAfterFree(CsvHeader, '\n', Lines(entries));
    SplitLines(entries);
  }

  lemma {:induction false} SplitLines(entries: seq<string>)
    requires forall i :: 0 <= i < |entries| ==> '\n' !in entries[i]
    ensures Split(Lines(entries), '\n') == entries + [""]
  {
    if |entries| == 0 {
      SplitFree("", '\n');
    } else {
      SplitLines(entries[1..]);
      SplitAfterFree(entries[0], '\n', Lines(entries[1..]));
      assert [entries[0]] + (entries[1..] + [""]) == entries + [""];
    }
  }

  /** `handleDownload` (lines 315-329): the stored entries as a CSV file named
      after the experiment; nothing changes. */
  function HandleDownload(d: Device): (r: Reply)
    ensures r.device == d && r.response.code == 200 && r.response.contentType == "text/csv"
    ensures r.response.attachment == Some(SafeStem(d.currentExperiment) + ".csv")
    ensures r.response.body == Csv(d.sensorData)
  {
    Reply(d, Response(200, "text/csv", Csv(d.sensorData), Some(SafeStem(d.currentExperiment) + ".csv")))
  }
}
